=== FILE: README.md ===
# Task Manager Dashboard — a Dafny model of its core

The dashboard is a small task manager. It has three parts.

- **Backend.** A FastAPI service keeps tasks (`id`, `title`, `description`) and writes one audit entry for each change. It serves `POST`, `GET`, `PUT` and `DELETE` on `/api/tasks`.
- **Task page.** A React page lists tasks five to a page, with search, Prev and Next, and delete. It opens a modal dialog to create or edit a task.
- **Logs page.** A React page shows the audit entries, each with a coloured badge, a zero-padded task id and the changed fields.

The model has these modules:

- `Wrappers`: `Option` and `Result`.
- `Text`:
  - Whitespace as Python's `str.strip` and JavaScript's `trim` each define it. The two sets differ.
  - Substring containment.
  - The backend's sanitiser: delete every `<…>` tag that closes on the same line, then strip whitespace.
- `Backend`: the API as pure functions on a `Store`. A store is a map from id to task, an append-only audit log and the next id to hand out.
  - Each request returns a `Reply`: the new store and either a value or an HTTP error.
  - A failing request leaves the store unchanged, because the transaction is never committed.
  - Listing clamps `page` and `limit`, filters on the stripped search term, orders by id descending, and cuts one page.
- `BackendProperties`:
  - The store invariant, and that every request preserves it.
  - The request algebra: no-op, idempotent and twice-delete results.
  - Completeness of the listing and of paging.
  - The API as a state machine over request sequences.
- `IdFormat`: the `#0042` labels, i.e. `padStart(4, "0")` of the decimal id. Decimal printing round-trips through parsing.
- `TaskModal`:
  - Prefilling from the task being edited.
  - The submit handler: trim, check in a fixed order, send one request, then reload and close, or alert and stay open.
  - Effects such as alerts and API calls are returned as data.
- `TaskPage`:
  - The page state is a reducer.
  - Browser effects become commands: fetching a page, deleting a task, saving through the dialog, alerting.
  - `window.confirm`, and whether each request succeeded, are event parameters.
- `LogsPage`: badge choice, loading, and how each row shows an entry.
- `EndToEnd`: how the frontend and the backend fit together.
  - Dialog bounds carry over into stored tasks.
  - The page count agrees with the backend's pagination.
  - Every logged entry is displayed with the colour of its action.
  - Where the two sides' whitespace rules disagree.

## Model

| member | source | states |
|---|---|---|
| Text.TrimBy | backend/main.py:42 | the trimmed string is a contiguous slice of the input that neither begins nor ends with whitespace |
| Text.TrimByCutsOnlySpace | backend/main.py:42 | everything trimming removes, at either end, is whitespace |
| Text.TrimByNoEdgeSpace | frontend/src/components/TaskModal.jsx:17-18 | a string without edge whitespace is left exactly as it is by trimming |
| Text.TrimByIdempotent | frontend/src/components/TaskModal.jsx:17-18 | trimming twice is trimming once |
| Text.PyIsSpace | backend/main.py:42 | Python's whitespace is JavaScript's without U+FEFF, plus U+001C to U+001F and U+0085 |
| Text.JsIsSpace | frontend/src/components/TaskModal.jsx:17-18 | below U+0080, JavaScript's whitespace is exactly tab, line feed, vertical tab, form feed, carriage return and space |
| Text.Strip | backend/main.py:42 | `str.strip()` makes the maximal trim: what it cuts at either end is all Python whitespace, the cut starts after all leading whitespace, and the result has no edge whitespace, so the result is the shortest such middle part |
| Text.Trim | frontend/src/components/TaskModal.jsx:17-18 | `trim()` does the same with JavaScript's whitespace |
| Text.Contains | frontend/src/pages/LogsPage.jsx:22-23 | containment needs `sub` to be no longer than `s`, and the empty string is contained in every string |
| Text.ContainsAt | backend/main.py:118-120 | an occurrence of `sub` at any offset makes `s` contain `sub` (the `%term%` pattern) |
| Text.ContainsIffOccurs | backend/main.py:118-120 | `s` contains `sub` if and only if `sub` occurs at some offset of `s` (both directions) |
| Text.CloseAt | backend/main.py:38 | the lazy `<.*?>` stops at the first `>` that has no line feed before it; when there is none, no tag starts here |
| Text.StripTags | backend/main.py:38-42 | tag removal never lengthens the text |
| Text.StripTagsProps | backend/main.py:38-42 | what tag removal leaves contains nothing the pattern matches; tag-free text is left unchanged; a trailing unclosed `<` stays unclosed |
| Text.StripTagsKeepsPlainPrefix | backend/main.py:38-42 | text before the first `<` is kept verbatim, and removal carries on with the rest |
| Text.CloseAtAfter | backend/main.py:38 | a tag body without `>` and without a line feed is closed by the `>` right after it |
| Text.StripTagsDropsFirstTag | backend/main.py:38-42 | a `<…>` span on one line with no `<` before it is deleted up to its first `>`, while the text before it is kept and the text after it is processed further |
| Text.CloseAtBeforeNewline | backend/main.py:38 | a `<` whose rest of the line has no `>` opens no tag, because `.` does not cross the line feed |
| Text.StripTagsKeepsLine | backend/main.py:38-42 | a line without `>` is kept whole, its `<`s included, together with its line feed, and tag removal resumes after it: `"<\n<b>c"` becomes `"<\nc"` |
| Text.LoneAngleBeforeTag | backend/main.py:38-42 | tag removal turns `"<\n<b>c"` into `"<\nc"`: the `<` that opens no tag stays, the tag after it goes |
| Text.KeepFirst | backend/main.py:38-42 | a kept first character (not the start of a closed tag) does not let a new tag form |
| Text.KeepFirstTagFree | backend/main.py:38-42 | putting a kept character in front of tag-free text gives tag-free text |
| Text.KeepFirstUnclosed | backend/main.py:38-42 | putting a character in front keeps an unclosed tail unclosed |
| Text.TagFreeInfix | backend/main.py:38-42 | any slice of tag-free text is tag-free, so stripping edge whitespace cannot create a tag |
| Text.Sanitize | backend/main.py:41-42 | `sanitize_text` never lengthens a string, and its output has no tag and no Python edge whitespace |
| Text.SanitizedIffFixpoint | backend/main.py:41-42 | a string is sanitised exactly when `sanitize_text` leaves it unchanged (both directions) |
| Text.SanitizeIdempotent | backend/main.py:41-42 | sanitising twice is sanitising once |
| Backend.LogAction | backend/main.py:45-58 | exactly one entry is appended with the given action and task id; an empty or absent content is stored as null and any other content verbatim |
| Backend.CreateTask | backend/main.py:68-97 | 400 "Title and Description must not be empty." exactly when either sanitised field is empty, with no change; otherwise a fresh id is added with the sanitised fields and one "Create Task" entry carrying both fields |
| Backend.UpdateTask | backend/main.py:134-178 | 404 for an unknown id; 400 "Title must not be empty." when a given title sanitises to empty, else 400 "Description must not be empty." when a given description does; no change on any error; otherwise only given fields are replaced, and one "Update Task" entry listing the changed fields is written exactly when something changed |
| Backend.ApplyField | backend/main.py:147-165 | an absent field is left alone, a field that sanitises to empty is refused, and any other field takes its sanitised value |
| Backend.ChangedFields | backend/main.py:145-165 | `changed_fields` is empty exactly when nothing changed, holds a field's new value exactly when that field differs, names only title and description, and lists the title first |
| Backend.Commit | backend/main.py:145-178 | the accepted fields are applied, and the log grows only when the task differs from before |
| Backend.DeleteTask | backend/main.py:181-196 | 404 for an unknown id and no change; otherwise the task is removed, one "Delete Task" entry without content is written, and the success message is returned |
| Backend.SearchTerm | backend/main.py:115-121 | a filter applies exactly when a search is given and its stripped form is non-empty, and the filter is that stripped form |
| Backend.MatchingBelow | backend/main.py:113-125 | the stored tasks below an id that pass the filter, each exactly once, in strictly descending id order |
| Backend.MatchIdsStep | backend/main.py:113-125 | the matching id set grows by the next id exactly when that task exists and passes the filter |
| Backend.MatchingBelowComplete | backend/main.py:113-125 | every matching stored task appears in the ordered list |
| Backend.MatchingBelowHead | backend/main.py:125 | the newest matching task comes first |
| Backend.Matching | backend/main.py:113-125 | the query's rows: as many as there are matching stored tasks, each stored and matching, in strictly descending id order |
| Backend.Window | backend/main.py:126-127 | `offset(off).limit(len)` keeps the rows from `off`, at most `len` of them, as many as remain |
| Backend.ClampPage | backend/main.py:108-109 | a page below 1 becomes 1 and any other page is kept |
| Backend.ClampLimit | backend/main.py:110-111 | a limit below 1 becomes 5 and any other limit is kept |
| Backend.PageOf | backend/main.py:124-128 | a page holds at most `limit` rows, is full whenever enough rows remain, and row `i` is match `(page-1)*limit + i` |
| Backend.ListTasks | backend/main.py:100-131 | page and limit are clamped, `total` counts every match, and `data` is the clamped page of the matches in descending id order |
| Backend.PageOfRow | backend/main.py:126-127 | a match that falls inside a page's window is on that page at its offset |
| Backend.PageRow | backend/main.py:126-127 | each row of a page is the match at its offset |
| Backend.ListTasksSound | backend/main.py:113-128 | every listed task is stored, unchanged, and passes the filter |
| Backend.ListTasksOrdered | backend/main.py:125 | a listed page is in strictly descending id order |
| BackendProperties.InitValid | backend/main.py:15 | the empty database satisfies the store invariant |
| BackendProperties.CreatePreservesValid | backend/main.py:68-97 | creating keeps ids as keys below the counter, stored fields sanitised and non-empty, and log entries well formed |
| BackendProperties.UpdatePreservesValid | backend/main.py:134-178 | updating keeps the store invariant |
| BackendProperties.DeletePreservesValid | backend/main.py:181-196 | deleting keeps the store invariant |
| BackendProperties.UpdateWithStoredValuesIsNoOp | backend/main.py:147-176 | resending a task's own stored fields returns the task and changes nothing, not even the log |
| BackendProperties.UpdateIdempotent | backend/main.py:134-178 | repeating a successful update returns the same task and changes nothing |
| BackendProperties.DeleteTwiceNotFound | backend/main.py:187-189 | deleting an id a second time is a 404 that changes nothing |
| BackendProperties.CreateThenDelete | backend/main.py:68-97 | deleting a task just created restores the task table, while the log keeps both entries |
| BackendProperties.MatchingExact | backend/main.py:113-125 | a task is among the matches if and only if it is stored and passes the filter |
| BackendProperties.NoSearchListsAll | backend/main.py:115-123 | with no search, or a blank one, `total` is the number of stored tasks |
| BackendProperties.PagesCoverMatches | backend/main.py:123-128 | match `j` is row `j mod limit` of page `j div limit + 1`, so paging reaches every match |
| BackendProperties.CreatedTaskListedFirst | backend/main.py:82-85 | a newly created task that passes the filter heads page 1 |
| BackendProperties.Handle | backend/main.py:68-196 | one request: listing changes nothing, the log only grows and by at most one entry, and the id counter never goes back |
| BackendProperties.HandlePreservesValid | backend/main.py:68-196 | any one request keeps the store invariant |
| BackendProperties.RunPreservesValid | backend/main.py:68-196 | any sequence of requests keeps the store invariant |
| BackendProperties.RunLogAppendOnly | backend/main.py:45-58 | over any request sequence the log only grows, by at most one entry per request, and the id counter never goes back |
| IdFormat.DigitChar | frontend/src/pages/LogsPage.jsx:74 | a digit value prints as a decimal digit character |
| IdFormat.DigitValue | frontend/src/pages/LogsPage.jsx:74 | a digit character reads as a value below ten |
| IdFormat.Decimal | frontend/src/pages/LogsPage.jsx:74 | `String(id)` is a non-empty run of digits with no leading zero unless it is "0" |
| IdFormat.Repeat | frontend/src/pages/LogsPage.jsx:74 | the fill run has the requested length and consists only of the fill character |
| IdFormat.PadStart | frontend/src/pages/LogsPage.jsx:74 | `padStart` leaves a long enough string alone, otherwise pads it on the left with the fill to the width, and always ends with the original |
| IdFormat.DecimalRoundTrip | frontend/src/pages/LogsPage.jsx:74 | reading back the printed id gives the id |
| IdFormat.ParseZeros | frontend/src/pages/LogsPage.jsx:74 | a run of padding zeros reads as zero |
| IdFormat.ParseLeadingZeros | frontend/src/pages/LogsPage.jsx:74 | leading zeros do not change the value |
| IdFormat.IdLabel | frontend/src/pages/TaskPage.jsx:118 | the label is `#` and then digits, four of them unless the id needs more, ending in the id's own decimal form |
| IdFormat.PadStartDigits | frontend/src/pages/LogsPage.jsx:74 | zero-padding a run of digits gives digits |
| IdFormat.DecimalLength | frontend/src/pages/LogsPage.jsx:74 | an id prints with more than `k` digits if and only if it is at least `10^k` |
| IdFormat.IdLabelRoundTrip | frontend/src/pages/TaskPage.jsx:118 | a label is `#` followed by digits that read back as the id |
| IdFormat.IdLabelInjective | frontend/src/pages/TaskPage.jsx:118 | different ids get different labels |
| IdFormat.IdLabelWidth | frontend/src/pages/LogsPage.jsx:74 | ids below 10000 get exactly four digits, ids below 1000 start with a zero, and ids from 1000 up are printed unpadded |
| TaskModal.Prefill | frontend/src/components/TaskModal.jsx:6-14 | creating starts empty; editing starts from the task's fields, and a missing field becomes "" |
| TaskModal.Validate | frontend/src/components/TaskModal.jsx:16-44 | each outcome (empty field, title over 100, description over 500, accepted) holds exactly under its condition, checked in that order on the trimmed fields; an accepted form sends the trimmed fields, as an update of the edited id exactly when editing |
| TaskModal.Submit | frontend/src/components/TaskModal.jsx:16-52 | a rejected form alerts its message and stays open; an accepted one sends one request, then reloads and closes on success, or alerts the save failure and stays open |
| TaskModal.SubmitCallsApiOnlyWhenValid | frontend/src/components/TaskModal.jsx:20-44 | the API is called once, first, and only for a valid form; the dialog closes if and only if the form was valid and the save succeeded |
| TaskModal.TitleBoundary | frontend/src/components/TaskModal.jsx:24-27 | a trimmed, non-empty title of 100 characters, with a valid description, is accepted, and one of 101 is rejected as too long |
| TaskModal.DescriptionBoundary | frontend/src/components/TaskModal.jsx:28-31 | a trimmed, non-empty description of 500 characters, with a valid title, is accepted, and one of 501 is rejected as too long |
| TaskModal.BlankTitleRejected | frontend/src/components/TaskModal.jsx:20-23 | an all-whitespace title is rejected as empty |
| TaskModal.Message | frontend/src/components/TaskModal.jsx:20-30 | the alert texts for an empty field, a title over 100 and a description over 500 characters |
| TaskModal.MessagesDistinct | frontend/src/components/TaskModal.jsx:21-50 | the three validation alerts differ from each other and from the save-failure alert |
| TaskModal.SentFieldsWellFormed | frontend/src/components/TaskModal.jsx:33-44 | fields sent to the API are non-empty, within their limits and trimmed |
| TaskModal.TrimmedFormSentVerbatim | frontend/src/components/TaskModal.jsx:17-44 | an already trimmed form within the limits is sent exactly as typed |
| TaskModal.EditUnchangedSendsStoredFields | frontend/src/components/TaskModal.jsx:9-38 | opening a task whose fields are trimmed, non-empty and within the 100 and 500 character limits, and saving without edits, sends its own fields back under its id |
| TaskPage.Mount | frontend/src/pages/TaskPage.jsx:6-26 | the page starts on page 1 with no rows and fetches page 1 with an empty search |
| TaskPage.TotalPages | frontend/src/pages/TaskPage.jsx:49 | the page count is at least 1 and the least count of five-row pages that holds `total` |
| TaskPage.ShownCount | frontend/src/pages/TaskPage.jsx:150 | "Showing N" is the row count capped at five |
| TaskPage.Navigate | frontend/src/pages/TaskPage.jsx:24-26 | a fetch is issued exactly when the page or the search changed |
| TaskPage.PrevDisabled | frontend/src/pages/TaskPage.jsx:154 | the Prev button is disabled exactly on page 1 |
| TaskPage.NextDisabled | frontend/src/pages/TaskPage.jsx:168 | when the Next button is disabled, the current page holds the last rows of the total |
| TaskPage.Prev | frontend/src/pages/TaskPage.jsx:153-163 | Prev does nothing on page 1, otherwise moves back one page, never below 1, keeping rows, search and total; it fetches the new page with the current search exactly when the page changed, and otherwise issues nothing |
| TaskPage.Next | frontend/src/pages/TaskPage.jsx:167-177 | Next does nothing on the last page, otherwise moves forward one page, never past the page count, keeping rows, search and total; it fetches the new page with the current search exactly when the page changed, and otherwise issues nothing |
| TaskPage.EditSearch | frontend/src/pages/TaskPage.jsx:81-84 | typing in the search box resets to page 1 and fetches page 1 for the new text, unless nothing changed |
| TaskPage.FinishLoad | frontend/src/pages/TaskPage.jsx:13-22 | a successful load replaces the rows and the total; a failed one only alerts |
| TaskPage.Delete | frontend/src/pages/TaskPage.jsx:38-47 | nothing happens without confirmation; otherwise it deletes, then reloads the current page or alerts the failure |
| TaskPage.OpenCreate | frontend/src/pages/TaskPage.jsx:28-31 | the create dialog opens with an empty form, and the page, search and rows are kept |
| TaskPage.OpenEdit | frontend/src/pages/TaskPage.jsx:33-36 | the edit dialog opens on the chosen task, prefilled from it, and the page, search and rows are kept |
| TaskPage.Translate | frontend/src/pages/TaskPage.jsx:184-185 | each dialog effect yields at most one command; only closing yields none; the reload fetches the current page and search, and is the only effect that fetches |
| TaskPage.TranslateAll | frontend/src/pages/TaskPage.jsx:182-188 | each dialog effect yields at most one page command, and the dialog never deletes a task |
| TaskPage.SubmitDialog | frontend/src/pages/TaskPage.jsx:182-188 | submitting keeps page, search and rows, and does nothing when no dialog is open |
| TaskPage.CloseDialog | frontend/src/pages/TaskPage.jsx:184 | cancelling closes the dialog and keeps everything else |
| TaskPage.Handle | frontend/src/pages/TaskPage.jsx:13-189 | only Prev, Next and typing a search change the page or search, and any such change issues exactly one fetch of the new page and search; opening, typing in or cancelling the dialog issues nothing; only Delete deletes and only Save saves |
| TaskPage.HandleKeepsPagePositive | frontend/src/pages/TaskPage.jsx:10-189 | no single event moves below page 1 or fetches such a page |
| TaskPage.TranslateFetchesCurrent | frontend/src/pages/TaskPage.jsx:185 | the dialog's reload fetches the current page and search |
| TaskPage.RunKeepsPagePositive | frontend/src/pages/TaskPage.jsx:10-189 | no sequence of events moves below page 1 or fetches such a page |
| TaskPage.FailedLoadKeepsTable | frontend/src/pages/TaskPage.jsx:18-21 | a failed load leaves the page exactly as it was |
| TaskPage.NextThenPrev | frontend/src/pages/TaskPage.jsx:154-169 | Next then Prev returns to the starting page, for a page below the page count |
| TaskPage.PrevThenNext | frontend/src/pages/TaskPage.jsx:154-169 | Prev then Next returns to the starting page, for a page from 2 up to the page count |
| TaskPage.SuccessfulSaveReloadsOnce | frontend/src/pages/TaskPage.jsx:182-188 | a successful save sends the request, reloads the current page once, and closes the dialog |
| TaskPage.TranslateSaved | frontend/src/components/TaskModal.jsx:33-47 | the effects of a successful save become a save command followed by one fetch of the current page |
| TaskPage.FailedSaveKeepsInput | frontend/src/components/TaskModal.jsx:48-51 | a failed save keeps the dialog open with what was typed |
| TaskPage.TwelveTasksExample | frontend/src/pages/TaskPage.jsx:49-169 | twelve tasks make three pages, five rows are shown, and Next fetches page 2 |
| LogsPage.BadgeOf | frontend/src/pages/LogsPage.jsx:21-25 | green if and only if the action mentions "Create"; yellow if and only if it mentions "Update" but not "Create"; red otherwise |
| LogsPage.Initial | frontend/src/pages/LogsPage.jsx:5 | the page starts with no entries |
| LogsPage.FinishLoad | frontend/src/pages/LogsPage.jsx:11-19 | a successful load replaces the entries; a failed one keeps them and alerts |
| LogsPage.ContentCellOf | frontend/src/pages/LogsPage.jsx:77-92 | the cell is a dash exactly when there is no content, and otherwise lists the fields in their stored order |
| LogsPage.Render | frontend/src/pages/LogsPage.jsx:45-95 | "No logs yet." exactly when there are no entries, and otherwise one row per entry in order |
| LogsPage.RenderRow | frontend/src/pages/LogsPage.jsx:56-93 | a row shows the entry's action with the badge its text selects and that badge's classes (emerald for "Create", yellow for "Update" without "Create", red otherwise), a `#` label that reads back as the task id, a dash exactly for missing content, and otherwise the fields in stored order |
| LogsPage.FailedFirstLoadShowsNothing | frontend/src/pages/LogsPage.jsx:7-19 | when the first load fails, the table shows "No logs yet." |
| LogsPage.MissingFirstChar | frontend/src/pages/LogsPage.jsx:22-23 | a string that lacks the first character of `sub` does not contain `sub` |
| LogsPage.CreateTaskBadge | frontend/src/pages/LogsPage.jsx:22 | "Create Task" is green |
| LogsPage.UpdateTaskBadge | frontend/src/pages/LogsPage.jsx:23 | "Update Task" is yellow |
| LogsPage.DeleteTaskBadge | frontend/src/pages/LogsPage.jsx:24 | "Delete Task" is red |
| LogsPage.CreateBeatsUpdate | frontend/src/pages/LogsPage.jsx:22-23 | an action that mentions both is green, since "Create" is checked first |
| EndToEnd.DialogCreateRespectsBounds | frontend/src/components/TaskModal.jsx:24-43 | a task created through the dialog is stored with at most 100 title and 500 description characters |
| EndToEnd.TagOnlyTitlePassesDialogFailsServer | backend/main.py:74-80 | the title "<b>" passes the dialog, but the backend strips it to nothing and answers 400 |
| EndToEnd.SeparatorTitlePassesDialogFailsServer | backend/main.py:42 | U+001C is whitespace to Python's `strip` but not to JavaScript's `trim`, so the dialog accepts a title the backend rejects |
| EndToEnd.ByteOrderMarkStrip | backend/main.py:42 | Python keeps a trailing U+FEFF that JavaScript trims |
| EndToEnd.PlainLetter | backend/main.py:42 | a single character that is neither `<` nor whitespace to Python or JavaScript is unchanged by both sanitising and trimming |
| EndToEnd.ByteOrderMarkStored | backend/main.py:74-85 | a title ending in U+FEFF is stored with that character |
| EndToEnd.ResavingUnchangedCanLogUpdate | backend/main.py:147-176 | opening such a task and saving it unedited sends the trimmed title, and the backend logs an "Update Task" entry for it |
| EndToEnd.PageHasRowsIffInRange | frontend/src/pages/TaskPage.jsx:49 | with five rows a page, when the total is positive, a page has rows if and only if it is within the page count computed from the backend's total |
| EndToEnd.ShownCountIsRowCount | frontend/src/pages/TaskPage.jsx:150 | "Showing N" is the number of rows the backend returned |
| EndToEnd.LoggedEntriesDisplay | frontend/src/pages/LogsPage.jsx:21-92 | every entry the backend writes is shown green, yellow or red exactly for create, update or delete, with a dash exactly for deletions and otherwise a non-empty field list |

## Left out

- The HTTP framework, CORS, the database session and the authentication dependency are not modelled. Every request is taken as authorised, and `backend/auth.py` is not part of this model.
- `frontend/src/api/taskApi.js` and `frontend/src/App.jsx` are not part of this model. A fetch command carries the page and search the page would send. The search text is not URL-encoded.
- Creation and change timestamps, the `GET /api/logs` endpoint and its timestamp ordering, and date formatting on both pages are not modelled. They depend on a clock.
- JSON encoding of the audit content is not modelled. Content is kept as an ordered list of field/value pairs, which is the order `Object.entries` shows.
- `window.confirm`, whether a request succeeded, and the arrival of asynchronous responses are event parameters. A load result is not paired with the fetch that asked for it, so a result may arrive at any time. The model therefore does not show which page a late response overwrites.
- `console.error` is not modelled. It has no observable effect.
- The `maxLength` attributes of the dialog inputs are not modelled. They are browser behaviour, and the submit handler checks the same limits again.
- Backend.CreateTask: an absent title or description (`None`) is not modelled, so the `text or ""` fallback is not covered. Both fields are taken as strings, and the request schema is not part of this model.
- Backend.ListTasks: the SQL `LIKE` match is modelled as a case-sensitive substring test. The case folding of the database engine and the `%` and `_` wildcards inside a search term are not modelled.
- Backend.ListTasks: it requires that stored ids are keys below the next id to hand out. This holds in every store the API produces (`BackendProperties.RunPreservesValid`) and replaces the database's own ordering by id.
- TaskModal.Validate: lengths count Unicode scalar values, where JavaScript's `.length` counts UTF-16 code units. A title with characters outside the Basic Multilingual Plane can pass here and fail in the browser.
- TaskPage.TotalPages: `total` is a natural number. The `|| 1` fallback for a `NaN` total is covered only for a total of 0.
- BackendProperties.RunLogAppendOnly: ids come from a counter that only grows, so a deleted id is never handed out again. This is a modelling choice. The database allocates ids itself and may give a deleted newest row's id to the next task; that allocation is not modelled.
- IdFormat.IdLabelRoundTrip: ids are exact integers. JavaScript holds them as doubles, so `String(id)` matches the model, and `IdFormat.IdLabelInjective` holds, only for ids below 2^53.
- Python's `str.isspace` is modelled for the characters current Unicode lists as whitespace. It is not derived from the Unicode database.

Two behaviours of the original are pinned down as lemmas rather than changed, because it is not clear they are unintended:

- `EndToEnd.SeparatorTitlePassesDialogFailsServer` and `EndToEnd.TagOnlyTitlePassesDialogFailsServer`: the dialog accepts titles that the backend answers with 400.
- `EndToEnd.ResavingUnchangedCanLogUpdate`: Python's `strip` and JavaScript's `trim` disagree on U+FEFF. Saving such a task unedited therefore changes its title and writes an audit entry.

=== FILE: backend.dfy ===
/**
 * The task API of backend/main.py with the database replaced by an
 * in-memory store: a map from id to task, an append-only audit log and a
 * counter for the next id. The counter only grows, so ids are never reused;
 * that is a choice of this model, since the database allocates ids itself.
 * Every request is all-or-nothing: a request that raises an HTTP error
 * returns the store it was given.
 */
module Backend {
  import opened Wrappers
  import opened Text

  type Id = nat

  /** A stored task; its creation timestamp is not modelled. */
  datatype Task = Task(id: Id, title: string, description: string)

  /** One entry of `updated_content`: a field name and its new value. */
  type Field = (string, string)

  /** An audit log row; `content` is the decoded `updated_content`, a JSON object in insertion order. */
  datatype LogEntry = LogEntry(action: string, taskId: Id, content: Option<seq<Field>>)

  datatype Store = Store(tasks: map<Id, Task>, log: seq<LogEntry>, nextId: Id)

  /** An `HTTPException`: status code and detail message. */
  datatype HttpError = HttpError(status: int, detail: string)

  /** The store after a request, and what the request returned or raised. */
  datatype Reply<T> = Reply(store: Store, result: Result<T, HttpError>)

  const CreateAction: string := "Create Task"
  const UpdateAction: string := "Update Task"
  const DeleteAction: string := "Delete Task"

  const EmptyFieldsDetail: string := "Title and Description must not be empty."
  const EmptyTitleDetail: string := "Title must not be empty."
  const EmptyDescriptionDetail: string := "Description must not be empty."
  const NotFoundDetail: string := "Task not found"
  const DeletedMessage: string := "Task deleted successfully"

  /** The empty database; ids start at 1. */
  function Init(): Store {
    Store(map[], [], 1)
  }

  /** What every stored task looks like: both fields non-empty and sanitised. */
  predicate ValidTask(t: Task) {
    t.title != "" && t.description != "" && IsSanitized(t.title) && IsSanitized(t.description)
  }

  /** Each task is stored under its own id, every id used so far is below `nextId`. */
  predicate Keyed(tasks: map<Id, Task>, nextId: Id) {
    forall id | id in tasks :: 1 <= id < nextId && tasks[id].id == id
  }

  /** The shape of a log entry the API writes: one of the three actions, content present exactly when not a deletion. */
  predicate WellFormedEntry(e: LogEntry) {
    && (e.action == CreateAction || e.action == UpdateAction || e.action == DeleteAction)
    && (e.content.None? <==> e.action == DeleteAction)
    && (e.content.Some? ==> e.content.value != [])
  }

  /** The store invariant. */
  predicate Valid(s: Store) {
    && s.nextId >= 1
    && Keyed(s.tasks, s.nextId)
    && (forall id | id in s.tasks :: ValidTask(s.tasks[id]))
    && (forall i | 0 <= i < |s.log| :: 1 <= s.log[i].taskId < s.nextId && WellFormedEntry(s.log[i]))
  }

  /** `log_action`: appends one entry; absent or empty content is stored as null. */
  function LogAction(log: seq<LogEntry>, action: string, taskId: Id, content: Option<seq<Field>>): (r: seq<LogEntry>)
    ensures |r| == |log| + 1 && r[..|log|] == log
    ensures r[|log|].action == action && r[|log|].taskId == taskId
    ensures r[|log|].content.Some? <==> content.Some? && content.value != []
    ensures r[|log|].content.Some? ==> r[|log|].content == content
  {
    var stored := if content.Some? && content.value != [] then content else None;
    log + [LogEntry(action, taskId, stored)]
  }

  // ---------------------------------------------------------------------
  // create_task
  // ---------------------------------------------------------------------

  /** The content logged for a created task. */
  function CreatedContent(t: Task): seq<Field> {
    [("title", t.title), ("description", t.description)]
  }

  /** `create_task`: sanitise both fields, refuse an empty one with 400, else store and log. */
  function CreateTask(s: Store, title: string, description: string): (r: Reply<Task>)
    ensures r.result.Err? <==> Sanitize(title) == "" || Sanitize(description) == ""
    ensures r.result.Err? ==> r.store == s && r.result.error == HttpError(400, EmptyFieldsDetail)
    ensures r.result.Ok? ==>
      var t := r.result.value;
      && t.title == Sanitize(title) && t.description == Sanitize(description)
      && (Keyed(s.tasks, s.nextId) ==> t.id !in s.tasks)
      && r.store.tasks == s.tasks[t.id := t]
      && r.store.log == s.log + [LogEntry(CreateAction, t.id, Some(CreatedContent(t)))]
      && t.id == s.nextId && r.store.nextId == s.nextId + 1
  {
    var t := Sanitize(title);
    var d := Sanitize(description);
    if t == "" || d == "" then
      Reply(s, Err(HttpError(400, EmptyFieldsDetail)))
    else
      var task := Task(s.nextId, t, d);
      var log := LogAction(s.log, CreateAction, task.id, Some(CreatedContent(task)));
      Reply(Store(s.tasks[task.id := task], log, s.nextId + 1), Ok(task))
  }

  // ---------------------------------------------------------------------
  // update_task
  // ---------------------------------------------------------------------

  /** How `update_task` treats one optional field of the payload. */
  datatype FieldUpdate = Untouched | Rejected | Set(value: string)

  /** `None` leaves the field alone; otherwise the sanitised value, refused when empty. */
  function ApplyField(incoming: Option<string>): (u: FieldUpdate)
    ensures u.Untouched? <==> incoming.None?
    ensures u.Rejected? <==> incoming.Some? && Sanitize(incoming.value) == ""
    ensures u.Set? ==> u.value == Sanitize(incoming.value) && u.value != "" && IsSanitized(u.value)
  {
    match incoming
    case None => Untouched
    case Some(x) => if Sanitize(x) == "" then Rejected else Set(Sanitize(x))
  }

  /** The `changed_fields` dictionary: the fields of `after` that differ from `before`, title first. */
  function ChangedFields(before: Task, after: Task): (r: seq<Field>)
    ensures r == [] <==> before.title == after.title && before.description == after.description
    ensures ("title", after.title) in r <==> after.title != before.title
    ensures ("description", after.description) in r <==> after.description != before.description
    ensures |r| <= 2 && forall i | 0 <= i < |r| :: r[i].0 == "title" || r[i].0 == "description"
    ensures |r| == 2 ==> r[0].0 == "title"
  {
    (if after.title != before.title then [("title", after.title)] else [])
    + (if after.description != before.description then [("description", after.description)] else [])
  }

  /** `update_task`: 404 for an unknown id, 400 for a field that sanitises to empty, otherwise commit and log the changes. */
  function UpdateTask(s: Store, id: Id, title: Option<string>, description: Option<string>): (r: Reply<Task>)
    ensures id !in s.tasks ==> r == Reply(s, Err(HttpError(404, NotFoundDetail)))
    ensures r.result.Err? ==> r.store == s
    ensures id in s.tasks ==>
      (r.result.Err? <==> (title.Some? && Sanitize(title.value) == "")
                          || (description.Some? && Sanitize(description.value) == ""))
    ensures id in s.tasks && title.Some? && Sanitize(title.value) == "" ==>
      r.result == Err(HttpError(400, EmptyTitleDetail))
    ensures id in s.tasks && !(title.Some? && Sanitize(title.value) == "")
            && description.Some? && Sanitize(description.value) == "" ==>
      r.result == Err(HttpError(400, EmptyDescriptionDetail))
    ensures r.result.Ok? ==>
      var before := s.tasks[id];
      var t := r.result.value;
      && id in s.tasks
      && t.id == before.id
      && t.title == (if title.Some? then Sanitize(title.value) else before.title)
      && t.description == (if description.Some? then Sanitize(description.value) else before.description)
      && r.store.tasks == s.tasks[id := t]
      && r.store.nextId == s.nextId
      && r.store.log == (if t == before then s.log
                         else s.log + [LogEntry(UpdateAction, id, Some(ChangedFields(before, t)))])
  {
    if id !in s.tasks then
      Reply(s, Err(HttpError(404, NotFoundDetail)))
    else
      var ft := ApplyField(title);
      var fd := ApplyField(description);
      if ft.Rejected? then Reply(s, Err(HttpError(400, EmptyTitleDetail)))
      else if fd.Rejected? then Reply(s, Err(HttpError(400, EmptyDescriptionDetail)))
      else Commit(s, id, ft, fd)
  }

  /** The successful tail of `update_task`: write the new fields and log the ones that changed. */
  function Commit(s: Store, id: Id, ft: FieldUpdate, fd: FieldUpdate): (r: Reply<Task>)
    requires id in s.tasks && !ft.Rejected? && !fd.Rejected?
    ensures r.result.Ok?
    ensures r.result.value == s.tasks[id].(
      title := if ft.Set? then ft.value else s.tasks[id].title,
      description := if fd.Set? then fd.value else s.tasks[id].description)
    ensures r.store.tasks == s.tasks[id := r.result.value]
    ensures r.store.nextId == s.nextId
    ensures r.store.log == (if r.result.value == s.tasks[id] then s.log
      else s.log + [LogEntry(UpdateAction, id, Some(ChangedFields(s.tasks[id], r.result.value)))])
  {
    var before := s.tasks[id];
    var t := before.(
      title := if ft.Set? then ft.value else before.title,
      description := if fd.Set? then fd.value else before.description);
    var changed := ChangedFields(before, t);
    assert changed == [] <==> t == before;
    var log := if changed != [] then LogAction(s.log, UpdateAction, id, Some(changed)) else s.log;
    Reply(Store(s.tasks[id := t], log, s.nextId), Ok(t))
  }

  // ---------------------------------------------------------------------
  // delete_task
  // ---------------------------------------------------------------------

  /** `delete_task`: 404 for an unknown id, otherwise remove the task and log the deletion without content. */
  function DeleteTask(s: Store, id: Id): (r: Reply<string>)
    ensures id !in s.tasks ==> r == Reply(s, Err(HttpError(404, NotFoundDetail)))
    ensures id in s.tasks ==>
      && r.result == Ok(DeletedMessage)
      && r.store.tasks == s.tasks - {id}
      && r.store.log == s.log + [LogEntry(DeleteAction, id, None)]
      && r.store.nextId == s.nextId
  {
    if id !in s.tasks then
      Reply(s, Err(HttpError(404, NotFoundDetail)))
    else
      var log := LogAction(s.log, DeleteAction, id, None);
      Reply(Store(s.tasks - {id}, log, s.nextId), Ok(DeletedMessage))
  }

  // ---------------------------------------------------------------------
  // list_tasks
  // ---------------------------------------------------------------------

  /** The `TaskListOut` response. */
  datatype TaskList = TaskList(data: seq<Task>, page: int, limit: int, total: nat)

  const DefaultLimit: int := 5

  /** The search filter in force: the stripped term, or none for a missing, empty or blank search. */
  function SearchTerm(search: Option<string>): (term: Option<string>)
    ensures term.None? <==> search.None? || Strip(search.value) == ""
    ensures term.Some? ==> term.value == Strip(search.value) && term.value != ""
  {
    match search
    case None => None
    case Some(q) =>
      if q == "" then None
      else
        var st := Strip(q);
        if st == "" then None else Some(st)
  }

  /** Does task `t` pass the filter? */
  predicate Matches(t: Task, term: Option<string>) {
    term.None? || Contains(t.title, term.value) || Contains(t.description, term.value)
  }

  /** The ids below `n` of tasks that pass the filter. */
  function MatchIds(tasks: map<Id, Task>, n: nat, term: Option<string>): set<Id> {
    set id | id in tasks && id < n && Matches(tasks[id], term)
  }

  /** The matching tasks with ids below `n`, ordered by id descending (`order_by(Task.id.desc())`). */
  function MatchingBelow(tasks: map<Id, Task>, n: nat, term: Option<string>): (r: seq<Task>)
    requires forall id | id in tasks :: tasks[id].id == id
    ensures |r| == |MatchIds(tasks, n, term)|
    ensures forall i | 0 <= i < |r| :: r[i].id in MatchIds(tasks, n, term) && tasks[r[i].id] == r[i]
    ensures forall i, j | 0 <= i < j < |r| :: r[i].id > r[j].id
  {
    if n == 0 then
      assert MatchIds(tasks, n, term) == {};
      []
    else
      var rest := MatchingBelow(tasks, n - 1, term);
      MatchIdsStep(tasks, n, term);
      if n - 1 in tasks && Matches(tasks[n - 1], term) then
        [tasks[n - 1]] + rest
      else
        rest
  }

  /** Going from `n - 1` to `n` adds `n - 1` to the matching ids exactly when it is a matching key. */
  lemma MatchIdsStep(tasks: map<Id, Task>, n: nat, term: Option<string>)
    requires n > 0
    ensures n - 1 !in MatchIds(tasks, n - 1, term)
    ensures n - 1 in tasks && Matches(tasks[n - 1], term) ==>
      MatchIds(tasks, n, term) == MatchIds(tasks, n - 1, term) + {n - 1}
    ensures !(n - 1 in tasks && Matches(tasks[n - 1], term)) ==>
      MatchIds(tasks, n, term) == MatchIds(tasks, n - 1, term)
  {
  }

  /** Every matching id below `n` has its task in `MatchingBelow`: the listing is complete. */
  lemma {:induction false} MatchingBelowComplete(tasks: map<Id, Task>, n: nat, term: Option<string>, id: Id)
    requires forall k | k in tasks :: tasks[k].id == k
    requires id in MatchIds(tasks, n, term)
    ensures tasks[id] in MatchingBelow(tasks, n, term)
  {
    MatchIdsStep(tasks, n, term);
    if id < n - 1 {
      MatchingBelowComplete(tasks, n - 1, term, id);
    }
  }

  /** The highest matching id comes first. */
  lemma MatchingBelowHead(tasks: map<Id, Task>, n: nat, term: Option<string>)
    requires forall k | k in tasks :: tasks[k].id == k
    requires n > 0 && n - 1 in tasks && Matches(tasks[n - 1], term)
    ensures |MatchingBelow(tasks, n, term)| > 0 && MatchingBelow(tasks, n, term)[0] == tasks[n - 1]
  {
  }

  /** Every task of the store that the search selects, newest id first. */
  function Matching(s: Store, search: Option<string>): (r: seq<Task>)
    requires Keyed(s.tasks, s.nextId)
    ensures |r| == |MatchIds(s.tasks, s.nextId, SearchTerm(search))|
    ensures forall i | 0 <= i < |r| :: r[i].id in s.tasks && s.tasks[r[i].id] == r[i] && Matches(r[i], SearchTerm(search))
    ensures forall i, j | 0 <= i < j < |r| :: r[i].id > r[j].id
  {
    MatchingBelow(s.tasks, s.nextId, SearchTerm(search))
  }

  /** At most `len` elements of `xs` starting at `off` (SQL `OFFSET off LIMIT len`). */
  function Window<T>(xs: seq<T>, off: nat, len: nat): (r: seq<T>)
    ensures |r| <= len
    ensures off <= |xs| ==> |r| == if off + len <= |xs| then len else |xs| - off
    ensures forall i | 0 <= i < |r| :: off + i < |xs| && r[i] == xs[off + i]
  {
    if off >= |xs| then []
    else if off + len <= |xs| then xs[off..off + len]
    else xs[off..]
  }

  /** The number of rows a page skips, `(page - 1) * limit`. */
  function Offset(page: int, limit: int): nat
    requires page >= 1 && limit >= 1
  {
    OffsetNonNegative(page - 1, limit);
    (page - 1) * limit
  }

  lemma OffsetNonNegative(a: nat, b: nat)
    ensures a * b >= 0
  {
  }

  /** The page number `list_tasks` uses: anything below 1 becomes 1. */
  function ClampPage(page: int): (p: int)
    ensures p >= 1 && (page >= 1 ==> p == page) && (page < 1 ==> p == 1)
  {
    if page < 1 then 1 else page
  }

  /** The page size `list_tasks` uses: anything below 1 becomes the default 5. */
  function ClampLimit(limit: int): (l: int)
    ensures l >= 1 && (limit >= 1 ==> l == limit) && (limit < 1 ==> l == DefaultLimit)
  {
    if limit < 1 then DefaultLimit else limit
  }

  /** Page `page` of `all` with `limit` rows per page. */
  function PageOf<T>(all: seq<T>, page: int, limit: int): (r: seq<T>)
    requires page >= 1 && limit >= 1
    ensures |r| <= limit
    ensures Offset(page, limit) < |all| ==>
      |r| == if Offset(page, limit) + limit <= |all| then limit else |all| - Offset(page, limit)
    ensures forall i | 0 <= i < |r| :: Offset(page, limit) + i < |all| && r[i] == all[Offset(page, limit) + i]
  {
    Window(all, Offset(page, limit), limit)
  }

  /** `list_tasks`: clamp page and limit, filter, count, order by id descending, then take one page. */
  function ListTasks(s: Store, page: int, limit: int, search: Option<string>): (r: TaskList)
    requires Keyed(s.tasks, s.nextId)
    ensures r.page == ClampPage(page) && r.limit == ClampLimit(limit)
    ensures r.total == |Matching(s, search)| == |MatchIds(s.tasks, s.nextId, SearchTerm(search))|
    ensures r.data == PageOf(Matching(s, search), r.page, r.limit)
  {
    var all := Matching(s, search);
    TaskList(PageOf(all, ClampPage(page), ClampLimit(limit)), ClampPage(page), ClampLimit(limit), |all|)
  }

  /** Any row of `all` that falls inside a page is on that page. */
  lemma PageOfRow<T>(all: seq<T>, page: int, limit: int, k: nat)
    requires page >= 1 && limit >= 1 && k < limit
    requires Offset(page, limit) + k < |all|
    ensures k < |PageOf(all, page, limit)| && PageOf(all, page, limit)[k] == all[Offset(page, limit) + k]
  {
  }

  /** Row `i` of a page is the match `Offset + i`. */
  lemma PageRow<T>(all: seq<T>, page: int, limit: int, i: nat)
    requires page >= 1 && limit >= 1
    requires i < |PageOf(all, page, limit)|
    ensures Offset(page, limit) + i < |all| && PageOf(all, page, limit)[i] == all[Offset(page, limit) + i]
  {
  }

  /** A page holds only stored tasks that pass the filter. */
  lemma ListTasksSound(s: Store, page: int, limit: int, search: Option<string>, i: nat)
    requires Keyed(s.tasks, s.nextId)
    requires i < |ListTasks(s, page, limit, search).data|
    ensures var t := ListTasks(s, page, limit, search).data[i];
      t.id in s.tasks && s.tasks[t.id] == t && Matches(t, SearchTerm(search))
  {
    var r := ListTasks(s, page, limit, search);
    var all := Matching(s, search);
    PageRow(all, r.page, r.limit, i);
    var k := Offset(r.page, r.limit) + i;
    assert all[k].id in MatchIds(s.tasks, s.nextId, SearchTerm(search));
  }

  /** A page is ordered by id descending. */
  lemma ListTasksOrdered(s: Store, page: int, limit: int, search: Option<string>, i: nat, j: nat)
    requires Keyed(s.tasks, s.nextId)
    requires i < j < |ListTasks(s, page, limit, search).data|
    ensures ListTasks(s, page, limit, search).data[i].id > ListTasks(s, page, limit, search).data[j].id
  {
    var r := ListTasks(s, page, limit, search);
    var all := Matching(s, search);
    PageRow(all, r.page, r.limit, i);
    PageRow(all, r.page, r.limit, j);
    var off := Offset(r.page, r.limit);
    assert all[off + i].id > all[off + j].id;
  }
}

=== FILE: backend_props.dfy ===
/**
 * Properties of the task API model that relate several requests: the store
 * invariant is kept by every request, the audit log only grows, re-sending
 * stored values is a no-op, and the listing is complete and paginates
 * without gaps.
 */
module BackendProperties {
  import opened Wrappers
  import opened Text
  import opened Backend

  /** The empty database satisfies the invariant. */
  lemma InitValid()
    ensures Valid(Init())
  {
  }

  /** `create_task` keeps the invariant. */
  lemma CreatePreservesValid(s: Store, title: string, description: string)
    requires Valid(s)
    ensures Valid(CreateTask(s, title, description).store)
  {
    var r := CreateTask(s, title, description);
    if r.result.Ok? {
      var t := r.result.value;
      assert ValidTask(t);
      assert t.id == s.nextId;
      var log := r.store.log;
      forall i | 0 <= i < |log| ensures 1 <= log[i].taskId < r.store.nextId && WellFormedEntry(log[i]) {
        if i < |s.log| {
          assert log[i] == s.log[i];
        }
      }
    }
  }

  /** `update_task` keeps the invariant. */
  lemma UpdatePreservesValid(s: Store, id: Id, title: Option<string>, description: Option<string>)
    requires Valid(s)
    ensures Valid(UpdateTask(s, id, title, description).store)
  {
    var r := UpdateTask(s, id, title, description);
    if r.result.Ok? {
      var t := r.result.value;
      assert ValidTask(t);
      var log := r.store.log;
      forall i | 0 <= i < |log| ensures 1 <= log[i].taskId < r.store.nextId && WellFormedEntry(log[i]) {
        if i < |s.log| {
          assert log[i] == s.log[i];
        } else {
          assert ChangedFields(s.tasks[id], t) != [];
        }
      }
    }
  }

  /** `delete_task` keeps the invariant. */
  lemma DeletePreservesValid(s: Store, id: Id)
    requires Valid(s)
    ensures Valid(DeleteTask(s, id).store)
  {
    var r := DeleteTask(s, id);
    if id in s.tasks {
      var log := r.store.log;
      forall i | 0 <= i < |log| ensures 1 <= log[i].taskId < r.store.nextId && WellFormedEntry(log[i]) {
        if i < |s.log| {
          assert log[i] == s.log[i];
        }
      }
    }
  }

  /** Re-sending a task's stored title and description changes nothing and logs nothing. */
  lemma UpdateWithStoredValuesIsNoOp(s: Store, id: Id)
    requires Valid(s) && id in s.tasks
    ensures var t := s.tasks[id];
      UpdateTask(s, id, Some(t.title), Some(t.description)) == Reply(s, Ok(t))
  {
    var t := s.tasks[id];
    SanitizedIffFixpoint(t.title);
    SanitizedIffFixpoint(t.description);
    var r := UpdateTask(s, id, Some(t.title), Some(t.description));
    assert r.result.value == t;
    assert r.store.tasks == s.tasks;
  }

  /** Repeating a successful update is a no-op: same task, no new log entry. */
  lemma UpdateIdempotent(s: Store, id: Id, title: Option<string>, description: Option<string>)
    requires UpdateTask(s, id, title, description).result.Ok?
    ensures var r := UpdateTask(s, id, title, description);
      UpdateTask(r.store, id, title, description) == Reply(r.store, r.result)
  {
    var r := UpdateTask(s, id, title, description);
    var r2 := UpdateTask(r.store, id, title, description);
    assert r2.result.value == r.result.value;
    assert r2.store.tasks == r.store.tasks;
  }

  /** Deleting the same id twice: the second request is a 404 that changes nothing. */
  lemma DeleteTwiceNotFound(s: Store, id: Id)
    requires id in s.tasks
    ensures var s1 := DeleteTask(s, id).store;
      DeleteTask(s1, id) == Reply(s1, Err(HttpError(404, NotFoundDetail)))
  {
  }

  /** Deleting a task just created restores the task map; the log keeps both entries. */
  lemma CreateThenDelete(s: Store, title: string, description: string)
    requires Valid(s)
    requires CreateTask(s, title, description).result.Ok?
    ensures var c := CreateTask(s, title, description);
      var d := DeleteTask(c.store, c.result.value.id);
      && d.result.Ok?
      && d.store.tasks == s.tasks
      && |d.store.log| == |s.log| + 2
  {
    var c := CreateTask(s, title, description);
    var id := c.result.value.id;
    assert id !in s.tasks;
    assert c.store.tasks - {id} == s.tasks;
  }

  /** The filter keeps exactly the stored tasks that pass it: both directions. */
  lemma MatchingExact(s: Store, search: Option<string>, t: Task)
    requires Keyed(s.tasks, s.nextId)
    ensures t in Matching(s, search) <==>
      t.id in s.tasks && s.tasks[t.id] == t && Matches(t, SearchTerm(search))
  {
    var term := SearchTerm(search);
    var all := Matching(s, search);
    if t in all {
      var i :| 0 <= i < |all| && all[i] == t;
      assert t.id in MatchIds(s.tasks, s.nextId, term);
    }
    if t.id in s.tasks && s.tasks[t.id] == t && Matches(t, term) {
      assert t.id in MatchIds(s.tasks, s.nextId, term);
      MatchingBelowComplete(s.tasks, s.nextId, term, t.id);
    }
  }

  /** With no effective search term every stored task matches, and `total` counts them all. */
  lemma NoSearchListsAll(s: Store, page: int, limit: int, search: Option<string>)
    requires Keyed(s.tasks, s.nextId)
    requires search.None? || Strip(search.value) == ""
    ensures ListTasks(s, page, limit, search).total == |s.tasks|
  {
    assert MatchIds(s.tasks, s.nextId, SearchTerm(search)) == s.tasks.Keys;
  }

  /** The `j`-th matching task is row `j % limit` of page `j / limit + 1`: paging shows every match once, in order. */
  lemma PagesCoverMatches(s: Store, limit: int, search: Option<string>, j: nat)
    requires Keyed(s.tasks, s.nextId)
    requires limit >= 1
    requires j < |Matching(s, search)|
    ensures var r := ListTasks(s, j / limit + 1, limit, search);
      j % limit < |r.data| && r.data[j % limit] == Matching(s, search)[j]
  {
    var all := Matching(s, search);
    var page := j / limit + 1;
    var k := j % limit;
    OffsetOfRow(j, limit);
    var r := ListTasks(s, page, limit, search);
    assert r.data == PageOf(all, page, limit);
    PageOfRow(all, page, limit, k);
  }

  /** Row `j` sits `j % limit` rows past the start of page `j / limit + 1`. */
  lemma OffsetOfRow(j: nat, limit: int)
    requires limit >= 1
    ensures Offset(j / limit + 1, limit) + j % limit == j
    ensures 0 <= j % limit < limit
  {
    assert (j / limit) * limit + j % limit == j;
  }

  /** A freshly created task that passes the search heads page 1: newest first. */
  lemma CreatedTaskListedFirst(s: Store, title: string, description: string, limit: int, search: Option<string>)
    requires Valid(s)
    requires CreateTask(s, title, description).result.Ok?
    requires Matches(CreateTask(s, title, description).result.value, SearchTerm(search))
    ensures var c := CreateTask(s, title, description);
      var r := ListTasks(c.store, 1, limit, search);
      |r.data| > 0 && r.data[0] == c.result.value
  {
    var c := CreateTask(s, title, description);
    var t := c.result.value;
    assert Keyed(c.store.tasks, c.store.nextId);
    MatchingBelowHead(c.store.tasks, c.store.nextId, SearchTerm(search));
    var all := Matching(c.store, search);
    assert all[0] == t;
    assert Offset(1, ClampLimit(limit)) == 0;
  }

  // ---------------------------------------------------------------------
  // The API as a state machine over a sequence of requests.
  // ---------------------------------------------------------------------

  /** One authorised request to the task API. */
  datatype Request =
    | Create(title: string, description: string)
    | Update(id: Id, newTitle: Option<string>, newDescription: Option<string>)
    | Delete(id: Id)
    | List(page: int, limit: int, search: Option<string>)

  /** The store after one request; listing only reads. */
  function Handle(s: Store, req: Request): (r: Store)
    ensures req.List? ==> r == s
    ensures s.log <= r.log && |r.log| <= |s.log| + 1
    ensures s.nextId <= r.nextId
  {
    match req
    case Create(t, d) => CreateTask(s, t, d).store
    case Update(id, t, d) => UpdateTask(s, id, t, d).store
    case Delete(id) => DeleteTask(s, id).store
    case List(_, _, _) => s
  }

  /** The store after a sequence of requests, in order. */
  function Run(s: Store, reqs: seq<Request>): Store
    decreases |reqs|
  {
    if |reqs| == 0 then s else Run(Handle(s, reqs[0]), reqs[1..])
  }

  /** Every request keeps the invariant. */
  lemma HandlePreservesValid(s: Store, req: Request)
    requires Valid(s)
    ensures Valid(Handle(s, req))
  {
    match req
    case Create(t, d) => CreatePreservesValid(s, t, d);
    case Update(id, t, d) => UpdatePreservesValid(s, id, t, d);
    case Delete(id) => DeletePreservesValid(s, id);
    case List(_, _, _) =>
  }

  /** Every store reachable from the empty database satisfies the invariant. */
  lemma {:induction false} RunPreservesValid(s: Store, reqs: seq<Request>)
    requires Valid(s)
    ensures Valid(Run(s, reqs))
    decreases |reqs|
  {
    if |reqs| > 0 {
      HandlePreservesValid(s, reqs[0]);
      RunPreservesValid(Handle(s, reqs[0]), reqs[1..]);
    }
  }

  /** The audit log is append-only, one entry at most per request; ids are never reused. */
  lemma {:induction false} RunLogAppendOnly(s: Store, reqs: seq<Request>)
    ensures s.log <= Run(s, reqs).log
    ensures |Run(s, reqs).log| <= |s.log| + |reqs|
    ensures s.nextId <= Run(s, reqs).nextId
    decreases |reqs|
  {
    if |reqs| > 0 {
      RunLogAppendOnly(Handle(s, reqs[0]), reqs[1..]);
    }
  }
}

=== FILE: end_to_end.dfy ===
/**
 * Facts that connect the frontend to the backend: what the dialog's
 * validation guarantees about stored tasks (and what it does not), how the
 * page count of the task page matches the backend's pagination, and how
 * the audit entries the backend writes are displayed.
 */
module EndToEnd {
  import opened Wrappers
  import opened Text
  import Backend
  import TaskModal
  import TaskPage
  import LogsPage

  /** A task as the frontend receives it. */
  function ToView(t: Backend.Task): TaskModal.TaskView {
    TaskModal.TaskView(t.id, Some(t.title), Some(t.description))
  }

  /** A task created through the dialog is stored with a title of at most 100 and a description of at most 500 characters. */
  lemma DialogCreateRespectsBounds(s: Backend.Store, form: TaskModal.Form)
    requires TaskModal.Validate(form, None).Ok?
    ensures var q := TaskModal.Validate(form, None).value;
      var r := Backend.CreateTask(s, q.title, q.description);
      r.result.Ok? ==>
        |r.result.value.title| <= TaskModal.MaxTitle && |r.result.value.description| <= TaskModal.MaxDescription
  {
    var q := TaskModal.Validate(form, None).value;
  }

  /** The dialog accepts a title that is only a tag; the backend strips it to nothing and answers 400. */
  lemma TagOnlyTitlePassesDialogFailsServer(s: Backend.Store)
    ensures TaskModal.Validate(TaskModal.Form("<b>", "x"), None).Ok?
    ensures Backend.CreateTask(s, "<b>", "x").result == Err(Backend.HttpError(400, Backend.EmptyFieldsDetail))
  {
    assert CloseAt("b>") == Some(1);
    assert StripTags("<b>") == "";
    TrimByNoEdgeSpace("<b>", JsIsSpace);
    TrimByNoEdgeSpace("x", JsIsSpace);
  }

  /** U+001C is whitespace to Python but not to JavaScript: the dialog accepts it as a title, the backend refuses it. */
  lemma SeparatorTitlePassesDialogFailsServer(s: Backend.Store)
    ensures TaskModal.Validate(TaskModal.Form("\U{1C}", "x"), None).Ok?
    ensures Backend.CreateTask(s, "\U{1C}", "x").result.Err?
  {
    TrimByNoEdgeSpace("\U{1C}", JsIsSpace);
    TrimByNoEdgeSpace("x", JsIsSpace);
    assert StripTags("\U{1C}") == "\U{1C}";
    assert LeadingSpace("\U{1C}", PyIsSpace) == 1;
  }

  /** Python keeps a trailing U+FEFF, JavaScript trims it. */
  lemma ByteOrderMarkStrip()
    ensures Sanitize("a\U{FEFF}") == "a\U{FEFF}"
    ensures Trim("a\U{FEFF}") == "a"
  {
    var t := "a\U{FEFF}";
    assert TagFree(t);
    assert NoEdgeSpace(t, PyIsSpace);
    SanitizedIffFixpoint(t);
    assert LeadingSpace(t, JsIsSpace) == 0;
    assert t[0..] == t;
    assert TrailingStart(t[..1], JsIsSpace) == 1;
    assert TrailingStart(t, JsIsSpace) == 1;
  }

  /** A one-character field that is neither `<` nor whitespace on either side passes both sides unchanged. */
  lemma PlainLetter(c: char)
    requires c != '<' && !PyIsSpace(c) && !JsIsSpace(c)
    ensures Sanitize([c]) == [c] && Trim([c]) == [c]
  {
  }

  /** Creating a task titled "a" followed by U+FEFF stores that title unchanged. */
  lemma ByteOrderMarkStored()
    ensures var c := Backend.CreateTask(Backend.Init(), "a\U{FEFF}", "x");
      c.result.Ok? && c.store.tasks[1] == Backend.Task(1, "a\U{FEFF}", "x")
  {
    ByteOrderMarkStrip();
    PlainLetter('x');
  }

  /**
   * U+FEFF is whitespace to JavaScript but not to Python: opening a stored
   * task whose title ends in it and saving it unchanged sends the title
   * without it, and the backend logs an "Update Task".
   */
  lemma ResavingUnchangedCanLogUpdate(s: Backend.Store, id: nat)
    requires id in s.tasks && s.tasks[id] == Backend.Task(id, "a\U{FEFF}", "x")
    ensures var view := ToView(s.tasks[id]);
      var q := TaskModal.Validate(TaskModal.Prefill(Some(view)), Some(view));
      && q == Ok(TaskModal.UpdateRequest(id, "a", "x"))
      && Backend.UpdateTask(s, id, Some("a"), Some("x")).store.log
         == s.log + [Backend.LogEntry(Backend.UpdateAction, id, Some([("title", "a")]))]
  {
    ByteOrderMarkStrip();
    PlainLetter('a');
    PlainLetter('x');
    var view := ToView(s.tasks[id]);
    var f := TaskModal.Prefill(Some(view));
    assert f == TaskModal.Form("a\U{FEFF}", "x");
    assert Trim(f.title) == "a" && Trim(f.description) == "x";
    var u := Backend.UpdateTask(s, id, Some("a"), Some("x"));
    assert u.result.value == Backend.Task(id, "a", "x");
    assert Backend.ChangedFields(s.tasks[id], u.result.value) == [("title", "a")];
  }

  /** With the frontend's page size, a page has rows exactly when it is within `TotalPages` of the total the backend reports. */
  lemma PageHasRowsIffInRange(s: Backend.Store, page: int, search: string)
    requires Backend.Keyed(s.tasks, s.nextId)
    requires page >= 1
    ensures var r := Backend.ListTasks(s, page, TaskPage.PageSize, Some(search));
      r.total > 0 ==> (|r.data| > 0 <==> page <= TaskPage.TotalPages(r.total))
  {
    var r := Backend.ListTasks(s, page, TaskPage.PageSize, Some(search));
    var n := TaskPage.TotalPages(r.total);
    assert r.page == page && r.limit == 5;
    var off := Backend.Offset(page, 5);
    assert off == (page - 1) * 5;
    if r.total > 0 {
      assert (n - 1) * 5 < r.total <= n * 5;
      if page <= n {
        assert off <= (n - 1) * 5;
      } else {
        assert off >= n * 5;
      }
    }
  }

  /** The "Showing N" count equals the number of rows the backend returned for the page. */
  lemma ShownCountIsRowCount(s: Backend.Store, p: TaskPage.PageState, page: int, search: string)
    requires Backend.Keyed(s.tasks, s.nextId)
    requires page >= 1
    ensures var r := Backend.ListTasks(s, page, TaskPage.PageSize, Some(search));
      var shown := TaskPage.FinishLoad(p, TaskPage.Loaded(seq(|r.data|, i requires 0 <= i < |r.data| => ToView(r.data[i])), r.total)).state;
      TaskPage.ShownCount(shown) == |r.data|
  {
  }

  /** An audit entry as the log page receives it. */
  function EntryView(e: Backend.LogEntry, rowId: nat): LogsPage.LogView {
    LogsPage.LogView(rowId, e.action, e.taskId, e.content)
  }

  /** Every entry the backend writes is shown with the colour of its action, and with a dash exactly for deletions. */
  lemma LoggedEntriesDisplay(s: Backend.Store, i: nat, rowId: nat)
    requires Backend.Valid(s) && i < |s.log|
    ensures var e := s.log[i];
      var row := LogsPage.RenderRow(EntryView(e, rowId));
      && (e.action == Backend.CreateAction <==> row.badge == LogsPage.Green)
      && (e.action == Backend.UpdateAction <==> row.badge == LogsPage.Yellow)
      && (e.action == Backend.DeleteAction <==> row.badge == LogsPage.Red)
      && (row.content.Dash? <==> e.action == Backend.DeleteAction)
      && (row.content.Pairs? ==> row.content.fields != [])
  {
    LogsPage.CreateTaskBadge();
    LogsPage.UpdateTaskBadge();
    LogsPage.DeleteTaskBadge();
  }
}

=== FILE: id_format.dfy ===
/**
 * How both pages print a task id: `#` followed by `String(id).padStart(4, "0")`
 * (frontend/src/pages/TaskPage.jsx:118, frontend/src/pages/LogsPage.jsx:74).
 */
module IdFormat {

  predicate IsDigit(c: char) {
    '0' <= c <= '9'
  }

  predicate AllDigits(s: string) {
    forall i | 0 <= i < |s| :: IsDigit(s[i])
  }

  function DigitChar(d: nat): (c: char)
    requires d < 10
    ensures IsDigit(c)
  {
    ('0' as int + d) as char
  }

  function DigitValue(c: char): (d: nat)
    requires IsDigit(c)
    ensures d < 10
  {
    (c as int - '0' as int) as nat
  }

  /** `String(n)` for a non-negative integer: decimal digits, no leading zero. */
  function Decimal(n: nat): (r: string)
    ensures |r| >= 1 && AllDigits(r)
    ensures |r| > 1 ==> r[0] != '0'
    decreases n
  {
    if n < 10 then [DigitChar(n)] else Decimal(n / 10) + [DigitChar(n % 10)]
  }

  /** The value of a string of decimal digits, leading zeros allowed. */
  function ParseDecimal(s: string): nat
    requires AllDigits(s)
    decreases |s|
  {
    if |s| == 0 then 0 else ParseDecimal(s[..|s| - 1]) * 10 + DigitValue(s[|s| - 1])
  }

  /** `k` copies of `c`. */
  function Repeat(c: char, k: nat): (r: string)
    ensures |r| == k && forall i | 0 <= i < k :: r[i] == c
  {
    if k == 0 then [] else Repeat(c, k - 1) + [c]
  }

  /** JavaScript's `s.padStart(width, fill)` for a one-character `fill`. */
  function PadStart(s: string, width: nat, fill: char): (r: string)
    ensures |s| >= width ==> r == s
    ensures |s| < width ==> |r| == width
    ensures r[|r| - |s|..] == s && forall i | 0 <= i < |r| - |s| :: r[i] == fill
  {
    if |s| >= width then s else Repeat(fill, width - |s|) + s
  }

  const LabelWidth: nat := 4

  /** The id cell: `#` then the id zero-padded to at least four digits. */
  function IdLabel(id: nat): (r: string)
    ensures |r| == 1 + (if |Decimal(id)| < LabelWidth then LabelWidth else |Decimal(id)|)
    ensures r[0] == '#' && AllDigits(r[1..])
    ensures r[|r| - |Decimal(id)|..] == Decimal(id)
  {
    var d := Decimal(id);
    var body := PadStart(d, LabelWidth, '0');
    PadStartDigits(d, LabelWidth);
    assert ("#" + body)[1..] == body;
    assert ("#" + body)[|body| + 1 - |d|..] == body[|body| - |d|..];
    "#" + body
  }

  /** Zero-padding digits gives digits. */
  lemma PadStartDigits(s: string, width: nat)
    requires AllDigits(s)
    ensures AllDigits(PadStart(s, width, '0'))
  {
    var r := PadStart(s, width, '0');
    var n := |r| - |s|;
    forall i | 0 <= i < |r| ensures IsDigit(r[i]) {
      if i >= n {
        assert r[i] == r[n..][i - n];
      }
    }
  }

  /** Parsing the decimal form gives the number back. */
  lemma {:induction false} DecimalRoundTrip(n: nat)
    ensures ParseDecimal(Decimal(n)) == n
    decreases n
  {
    var d := Decimal(n);
    if n >= 10 {
      DecimalRoundTrip(n / 10);
      assert d[..|d| - 1] == Decimal(n / 10);
    }
  }

  /** A string of zeros is worth nothing. */
  lemma {:induction false} ParseZeros(k: nat)
    ensures ParseDecimal(Repeat('0', k)) == 0
  {
    if k > 0 {
      ParseZeros(k - 1);
      assert Repeat('0', k)[..k - 1] == Repeat('0', k - 1);
    }
  }

  /** Leading zeros do not change the value. */
  lemma {:induction false} ParseLeadingZeros(k: nat, s: string)
    requires AllDigits(s)
    ensures AllDigits(Repeat('0', k) + s)
    ensures ParseDecimal(Repeat('0', k) + s) == ParseDecimal(s)
    decreases |s|
  {
    var z := Repeat('0', k);
    if |s| == 0 {
      assert z + s == z;
      ParseZeros(k);
    } else {
      ParseLeadingZeros(k, s[..|s| - 1]);
      assert (z + s)[..|z + s| - 1] == z + s[..|s| - 1];
    }
  }

  /** Ten to the power `k`. */
  function Pow10(k: nat): (p: nat)
    ensures p >= 1
  {
    if k == 0 then 1 else 10 * Pow10(k - 1)
  }

  /** `n` has more than `k` digits exactly when it is at least ten to the `k`. */
  lemma {:induction false} DecimalLength(n: nat, k: nat)
    requires k >= 1
    ensures |Decimal(n)| > k <==> n >= Pow10(k)
    decreases n
  {
    assert Pow10(k) == 10 * Pow10(k - 1);
    if n >= 10 && k > 1 {
      DecimalLength(n / 10, k - 1);
    }
  }

  /** The label of an id reads back as that id: the padding loses nothing. */
  lemma IdLabelRoundTrip(id: nat)
    ensures |IdLabel(id)| >= 1 && IdLabel(id)[0] == '#'
    ensures AllDigits(IdLabel(id)[1..])
    ensures ParseDecimal(IdLabel(id)[1..]) == id
  {
    var d := Decimal(id);
    var body := PadStart(d, LabelWidth, '0');
    assert IdLabel(id)[1..] == body;
    DecimalRoundTrip(id);
    if |d| < LabelWidth {
      ParseLeadingZeros(LabelWidth - |d|, d);
    }
  }

  /** Different ids never share a label. */
  lemma IdLabelInjective(a: nat, b: nat)
    requires IdLabel(a) == IdLabel(b)
    ensures a == b
  {
    IdLabelRoundTrip(a);
    IdLabelRoundTrip(b);
  }

  /** Ids below 10000 print as `#` and exactly four digits; ids of four or more digits are printed unpadded. */
  lemma IdLabelWidth(id: nat)
    ensures id < 10000 ==> |IdLabel(id)| == 1 + LabelWidth
    ensures id >= 1000 ==> IdLabel(id) == "#" + Decimal(id)
    ensures id < 1000 ==> |IdLabel(id)| == 1 + LabelWidth && IdLabel(id)[1] == '0'
  {
    assert Pow10(3) == 1000 && Pow10(4) == 10000;
    DecimalLength(id, 3);
    DecimalLength(id, 4);
  }
}

=== FILE: logs_page.dfy ===
/**
 * The audit log view of frontend/src/pages/LogsPage.jsx: loading the list
 * once, classifying an action into a badge colour by substring, and
 * rendering the task id and the updated content of each row.
 */
module LogsPage {
  import opened Wrappers
  import opened Text
  import IdFormat

  /** The three badge colours of `badgeClasses`. */
  datatype Badge = Green | Yellow | Red

  /** `badgeClasses`: "Create" wins over "Update"; everything else is red. */
  function BadgeOf(action: string): (b: Badge)
    ensures b == Green <==> Contains(action, "Create")
    ensures b == Yellow <==> !Contains(action, "Create") && Contains(action, "Update")
    ensures b == Red <==> !Contains(action, "Create") && !Contains(action, "Update")
  {
    if Contains(action, "Create") then Green
    else if Contains(action, "Update") then Yellow
    else Red
  }

  /** The CSS classes of each badge. */
  function BadgeClasses(b: Badge): string {
    match b
    case Green => "bg-emerald-500/15 text-emerald-300"
    case Yellow => "bg-yellow-500/15 text-yellow-300"
    case Red => "bg-red-500/15 text-red-300"
  }

  /** An audit entry as the API returns it; `content` is the decoded `updated_content`. */
  datatype LogView = LogView(id: nat, action: string, taskId: nat, content: Option<seq<(string, string)>>)

  /** The page state: the entries last loaded. */
  datatype LogsState = LogsState(logs: seq<LogView>)

  function Initial(): (s: LogsState)
    ensures s.logs == []
  {
    LogsState([])
  }

  datatype LoadResult = Loaded(entries: seq<LogView>) | LoadFailed

  const LoadFailedMessage: string := "Failed to load logs."

  /** `loadLogs` completing: the new list, or an alert and the old list. */
  function FinishLoad(s: LogsState, result: LoadResult): (r: (LogsState, seq<string>))
    ensures result.LoadFailed? ==> r == (s, [LoadFailedMessage])
    ensures result.Loaded? ==> r == (LogsState(result.entries), [])
  {
    match result
    case Loaded(entries) => (LogsState(entries), [])
    case LoadFailed => (s, [LoadFailedMessage])
  }

  /** The "Updated Content" cell: key/value lines when content is present, a dash otherwise. */
  datatype ContentCell = Dash | Pairs(fields: seq<(string, string)>)

  /** `log.updated_content ? Object.entries(...) : "—"`; a present object is truthy even when empty. */
  function ContentCellOf(content: Option<seq<(string, string)>>): (c: ContentCell)
    ensures c.Dash? <==> content.None?
    ensures c.Pairs? ==> c.fields == content.value
  {
    match content
    case None => Dash
    case Some(fields) => Pairs(fields)
  }

  /** One rendered table row. */
  datatype Row = Row(badge: Badge, classes: string, action: string, taskLabel: string, content: ContentCell)

  /** One entry as a row: its action with the matching badge and its classes, its task id as a label that reads back, and its content. */
  function RenderRow(l: LogView): (r: Row)
    ensures r.action == l.action
    ensures r.badge == Green <==> Contains(l.action, "Create")
    ensures r.badge == Yellow <==> !Contains(l.action, "Create") && Contains(l.action, "Update")
    ensures Contains(l.action, "Create") ==> r.classes == "bg-emerald-500/15 text-emerald-300"
    ensures !Contains(l.action, "Create") && Contains(l.action, "Update") ==> r.classes == "bg-yellow-500/15 text-yellow-300"
    ensures !Contains(l.action, "Create") && !Contains(l.action, "Update") ==> r.classes == "bg-red-500/15 text-red-300"
    ensures |r.taskLabel| >= 1 && r.taskLabel[0] == '#' && IdFormat.AllDigits(r.taskLabel[1..])
    ensures IdFormat.ParseDecimal(r.taskLabel[1..]) == l.taskId
    ensures r.content.Dash? <==> l.content.None?
    ensures r.content.Pairs? ==> r.content.fields == l.content.value
  {
    IdFormat.IdLabelRoundTrip(l.taskId);
    var badge := BadgeOf(l.action);
    Row(badge, BadgeClasses(badge), l.action, IdFormat.IdLabel(l.taskId), ContentCellOf(l.content))
  }

  /** The table body: the placeholder when there are no entries, else one row per entry in order. */
  datatype Table = NoLogsYet | Rows(rows: seq<Row>)

  function Render(s: LogsState): (t: Table)
    ensures t.NoLogsYet? <==> s.logs == []
    ensures t.Rows? ==> |t.rows| == |s.logs|
    ensures t.Rows? ==> forall i | 0 <= i < |s.logs| :: t.rows[i] == RenderRow(s.logs[i])
  {
    if s.logs == [] then NoLogsYet else Rows(seq(|s.logs|, i requires 0 <= i < |s.logs| => RenderRow(s.logs[i])))
  }

  /** A failed first load leaves the table empty. */
  lemma FailedFirstLoadShowsNothing()
    ensures Render(FinishLoad(Initial(), LoadFailed).0) == NoLogsYet
  {
  }

  /** A string lacking the first character of a non-empty `sub` does not contain `sub`. */
  lemma {:induction false} MissingFirstChar(s: string, sub: string)
    requires |sub| > 0 && sub[0] !in s
    ensures !Contains(s, sub)
    decreases |s|
  {
    if |s| > 0 {
      assert s[0] != sub[0];
      MissingFirstChar(s[1..], sub);
    }
  }

  /** The backend's create action is green. */
  lemma CreateTaskBadge()
    ensures BadgeOf("Create Task") == Green
  {
    assert "Create" <= "Create Task";
  }

  /** The backend's update action is yellow. */
  lemma UpdateTaskBadge()
    ensures BadgeOf("Update Task") == Yellow
  {
    MissingFirstChar("Update Task", "Create");
    assert "Update" <= "Update Task";
  }

  /** The backend's delete action is red. */
  lemma DeleteTaskBadge()
    ensures BadgeOf("Delete Task") == Red
  {
    MissingFirstChar("Delete Task", "Create");
    MissingFirstChar("Delete Task", "Update");
  }

  /** "Create" takes precedence: an action naming both is green. */
  lemma CreateBeatsUpdate(action: string)
    requires Contains(action, "Create") && Contains(action, "Update")
    ensures BadgeOf(action) == Green
  {
  }
}

=== FILE: task_modal.dfy ===
/**
 * The create/edit dialog of frontend/src/components/TaskModal.jsx: edit-mode
 * prefill and `handleSubmit`, which trims both fields, validates them in a
 * fixed order and then sends a create or an update. Alerts and API calls are
 * returned as effects; the API outcome is a parameter.
 */
module TaskModal {
  import opened Wrappers
  import opened Text

  /** The `task` prop as the dialog sees it; title and description may be missing. */
  datatype TaskView = TaskView(id: nat, title: Option<string>, description: Option<string>)

  /** The two controlled inputs. */
  datatype Form = Form(title: string, description: string)

  const MaxTitle: nat := 100
  const MaxDescription: nat := 500

  datatype FormError = EmptyField | TitleTooLong | DescriptionTooLong

  /** The alert shown for each validation failure. */
  function Message(e: FormError): string {
    match e
    case EmptyField => "Title and Description must not be empty."
    case TitleTooLong => "Title must be at most 100 characters."
    case DescriptionTooLong => "Description must be at most 500 characters."
  }

  const SaveFailedMessage: string := "Failed to save task. Please try again."

  /** Each failure has its own alert, and none reads like the save failure. */
  lemma MessagesDistinct(e1: FormError, e2: FormError)
    ensures e1 != e2 ==> Message(e1) != Message(e2)
    ensures Message(e1) != SaveFailedMessage
  {
  }

  /** The API call a valid submission makes. */
  datatype Request = CreateRequest(title: string, description: string) | UpdateRequest(id: nat, title: string, description: string)

  /** What `handleSubmit` does, in order. */
  datatype Effect = Alert(message: string) | Send(request: Request) | Reload | Close

  /** The form when the dialog opens: empty for a new task, the task's fields (missing ones as "") when editing. */
  function Prefill(editing: Option<TaskView>): (f: Form)
    ensures editing.None? ==> f == Form("", "")
    ensures editing.Some? && editing.value.title.Some? ==> f.title == editing.value.title.value
    ensures editing.Some? && editing.value.title.None? ==> f.title == ""
    ensures editing.Some? && editing.value.description.Some? ==> f.description == editing.value.description.value
    ensures editing.Some? && editing.value.description.None? ==> f.description == ""
  {
    match editing
    case None => Form("", "")
    case Some(t) => Form(t.title.GetOr(""), t.description.GetOr(""))
  }

  /** The validation of `handleSubmit`: emptiness first, then title length, then description length. */
  function Validate(form: Form, editing: Option<TaskView>): (r: Result<Request, FormError>)
    ensures r.Ok? <==>
      Trim(form.title) != "" && Trim(form.description) != ""
      && |Trim(form.title)| <= MaxTitle && |Trim(form.description)| <= MaxDescription
    ensures r == Err(EmptyField) <==> Trim(form.title) == "" || Trim(form.description) == ""
    ensures r == Err(TitleTooLong) <==>
      Trim(form.title) != "" && Trim(form.description) != "" && |Trim(form.title)| > MaxTitle
    ensures r == Err(DescriptionTooLong) <==>
      Trim(form.title) != "" && Trim(form.description) != ""
      && |Trim(form.title)| <= MaxTitle && |Trim(form.description)| > MaxDescription
    ensures r.Ok? ==> r.value.title == Trim(form.title) && r.value.description == Trim(form.description)
    ensures r.Ok? ==> (r.value.UpdateRequest? <==> editing.Some?)
    ensures r.Ok? && editing.Some? ==> r.value.id == editing.value.id
  {
    var t := Trim(form.title);
    var d := Trim(form.description);
    if t == "" || d == "" then Err(EmptyField)
    else if |t| > MaxTitle then Err(TitleTooLong)
    else if |d| > MaxDescription then Err(DescriptionTooLong)
    else if editing.Some? then Ok(UpdateRequest(editing.value.id, t, d))
    else Ok(CreateRequest(t, d))
  }

  /** The dialog after a submission: its form, whether it closed, and the effects in order. */
  datatype Submission = Submission(form: Form, closed: bool, effects: seq<Effect>)

  /**
   * `handleSubmit`: an invalid form only alerts; a valid one sends the
   * request, and on success reloads the list and closes, on failure alerts
   * and stays open. The inputs themselves are never rewritten.
   */
  function Submit(form: Form, editing: Option<TaskView>, saveSucceeded: bool): (s: Submission)
    ensures s.form == form
    ensures Validate(form, editing).Err? ==>
      s == Submission(form, false, [Alert(Message(Validate(form, editing).error))])
    ensures Validate(form, editing).Ok? && saveSucceeded ==>
      s == Submission(form, true, [Send(Validate(form, editing).value), Reload, Close])
    ensures Validate(form, editing).Ok? && !saveSucceeded ==>
      s == Submission(form, false, [Send(Validate(form, editing).value), Alert(SaveFailedMessage)])
  {
    match Validate(form, editing)
    case Err(e) => Submission(form, false, [Alert(Message(e))])
    case Ok(req) =>
      if saveSucceeded then Submission(form, true, [Send(req), Reload, Close])
      else Submission(form, false, [Send(req), Alert(SaveFailedMessage)])
  }

  /** A rejected form makes no API call and leaves the dialog open; a valid one makes exactly one call, first. */
  lemma SubmitCallsApiOnlyWhenValid(form: Form, editing: Option<TaskView>, saveSucceeded: bool)
    ensures var s := Submit(form, editing, saveSucceeded);
      && (Validate(form, editing).Err? ==> (forall i | 0 <= i < |s.effects| :: !s.effects[i].Send?) && !s.closed)
      && (Validate(form, editing).Ok? ==> s.effects[0].Send? && forall i | 0 < i < |s.effects| :: !s.effects[i].Send?)
      && (s.closed <==> Validate(form, editing).Ok? && saveSucceeded)
  {
  }

  /** The title bound is inclusive: exactly 100 characters pass the title check, 101 fail it. */
  lemma TitleBoundary(title: string, description: string, editing: Option<TaskView>)
    requires title != "" && NoEdgeSpace(title, JsIsSpace)
    requires description != "" && NoEdgeSpace(description, JsIsSpace) && |description| <= MaxDescription
    ensures |title| == 100 ==> Validate(Form(title, description), editing).Ok?
    ensures |title| == 101 ==> Validate(Form(title, description), editing) == Err(TitleTooLong)
  {
    TrimByNoEdgeSpace(title, JsIsSpace);
    TrimByNoEdgeSpace(description, JsIsSpace);
  }

  /** The description bound is inclusive: exactly 500 characters pass, 501 fail. */
  lemma DescriptionBoundary(title: string, description: string, editing: Option<TaskView>)
    requires title != "" && NoEdgeSpace(title, JsIsSpace) && |title| <= MaxTitle
    requires description != "" && NoEdgeSpace(description, JsIsSpace)
    ensures |description| == 500 ==> Validate(Form(title, description), editing).Ok?
    ensures |description| == 501 ==> Validate(Form(title, description), editing) == Err(DescriptionTooLong)
  {
    TrimByNoEdgeSpace(title, JsIsSpace);
    TrimByNoEdgeSpace(description, JsIsSpace);
  }

  /** A whitespace-only title is rejected before any length check. */
  lemma BlankTitleRejected(title: string, description: string, editing: Option<TaskView>)
    requires AllSpace(title, JsIsSpace)
    ensures Validate(Form(title, description), editing) == Err(EmptyField)
  {
  }

  /** What a valid submission sends is trimmed and within bounds. */
  lemma SentFieldsWellFormed(form: Form, editing: Option<TaskView>)
    requires Validate(form, editing).Ok?
    ensures var q := Validate(form, editing).value;
      && 0 < |q.title| <= MaxTitle && 0 < |q.description| <= MaxDescription
      && NoEdgeSpace(q.title, JsIsSpace) && NoEdgeSpace(q.description, JsIsSpace)
  {
  }

  /** Fields already trimmed and within bounds pass validation and are sent exactly as typed. */
  lemma TrimmedFormSentVerbatim(form: Form, editing: Option<TaskView>)
    requires form.title != "" && NoEdgeSpace(form.title, JsIsSpace) && |form.title| <= MaxTitle
    requires form.description != "" && NoEdgeSpace(form.description, JsIsSpace) && |form.description| <= MaxDescription
    ensures Validate(form, editing) == Ok(
      if editing.Some? then UpdateRequest(editing.value.id, form.title, form.description)
      else CreateRequest(form.title, form.description))
  {
    TrimByNoEdgeSpace(form.title, JsIsSpace);
    TrimByNoEdgeSpace(form.description, JsIsSpace);
  }

  /** Opening a task whose fields are already valid and saving at once sends those same fields back. */
  lemma EditUnchangedSendsStoredFields(t: TaskView, title: string, description: string)
    requires t.title == Some(title) && t.description == Some(description)
    requires title != "" && NoEdgeSpace(title, JsIsSpace) && |title| <= MaxTitle
    requires description != "" && NoEdgeSpace(description, JsIsSpace) && |description| <= MaxDescription
    ensures Validate(Prefill(Some(t)), Some(t)) == Ok(UpdateRequest(t.id, title, description))
  {
    var f := Prefill(Some(t));
    assert f == Form(title, description);
    TrimmedFormSentVerbatim(f, Some(t));
  }
}

=== FILE: task_page.dfy ===
/**
 * The task list controller of frontend/src/pages/TaskPage.jsx as a pure
 * reducer. The state is the table rows, the server's total, the current
 * page and search text, and the open dialog if any. Every transition
 * returns the new state and the commands it issues in order: list fetches
 * (the `useEffect` on `[page, search]`), deletions, saves and alerts.
 * Network outcomes and the confirmation dialog's answer are parameters.
 */
module TaskPage {
  import opened Wrappers
  import TaskModal

  const PageSize: nat := 5

  /** The open dialog: the task being edited (none when creating) and its form. */
  datatype Dialog = Dialog(editing: Option<TaskModal.TaskView>, form: TaskModal.Form)

  datatype PageState = PageState(
    tasks: seq<TaskModal.TaskView>,
    total: nat,
    page: int,
    search: string,
    dialog: Option<Dialog>)

  datatype Command =
    | FetchTasks(page: int, search: string)
    | RemoveTask(id: nat)
    | SaveTask(request: TaskModal.Request)
    | Alert(message: string)

  datatype Step = Step(state: PageState, commands: seq<Command>)

  const LoadFailedMessage: string := "Failed to load tasks."
  const DeleteFailedMessage: string := "Failed to delete task."

  /** The state before the first load: nothing shown, page 1, empty search. */
  function Initial(): PageState {
    PageState([], 0, 1, "", None)
  }

  /** Mounting issues the first fetch. */
  function Mount(): (r: Step)
    ensures r.state.page == 1 && r.state.tasks == [] && r.commands == [FetchTasks(1, "")]
  {
    Step(Initial(), [FetchTasks(1, "")])
  }

  /** `Math.ceil(total / 5) || 1`: the number of pages, never zero. */
  function TotalPages(total: nat): (n: nat)
    ensures n >= 1
    ensures total > 0 ==> (n - 1) * PageSize < total <= n * PageSize
    ensures total == 0 ==> n == 1
  {
    if total == 0 then 1 else (total + PageSize - 1) / PageSize
  }

  /** The "Showing N of total" count. */
  function ShownCount(s: PageState): (n: nat)
    ensures n <= PageSize && n <= |s.tasks|
    ensures n == PageSize || n == |s.tasks|
  {
    if |s.tasks| < PageSize then |s.tasks| else PageSize
  }

  /** Set page and search together; the effect refetches only when one of them changed. */
  function Navigate(s: PageState, page: int, search: string): (r: Step)
    ensures r.state == s.(page := page, search := search)
    ensures r.commands == if page != s.page || search != s.search then [FetchTasks(page, search)] else []
  {
    var next := s.(page := page, search := search);
    if page != s.page || search != s.search then Step(next, [FetchTasks(page, search)]) else Step(next, [])
  }

  /** The Prev button's `disabled`: on the first page. */
  predicate PrevDisabled(s: PageState) {
    s.page == 1
  }

  /** The Next button's `disabled`: on the last page, which holds the final rows of the total. */
  predicate NextDisabled(s: PageState): (b: bool)
    ensures b ==> s.total <= s.page * PageSize
    ensures b && s.total > 0 ==> (s.page - 1) * PageSize < s.total
  {
    s.page == TotalPages(s.total)
  }

  /** The Prev button: disabled on page 1, otherwise `max(1, page - 1)`. */
  function Prev(s: PageState): (r: Step)
    ensures PrevDisabled(s) ==> r == Step(s, [])
    ensures r.state.page >= 1
    ensures !PrevDisabled(s) && s.page > 1 ==> r.state.page == s.page - 1
    ensures r.commands == if r.state.page != s.page then [FetchTasks(r.state.page, s.search)] else []
    ensures r.state.tasks == s.tasks && r.state.search == s.search && r.state.total == s.total
  {
    if PrevDisabled(s) then Step(s, [])
    else Navigate(s, if s.page - 1 < 1 then 1 else s.page - 1, s.search)
  }

  /** The Next button: disabled exactly on the last page, otherwise `min(totalPages, page + 1)`. */
  function Next(s: PageState): (r: Step)
    ensures NextDisabled(s) ==> r == Step(s, [])
    ensures r.state.page <= TotalPages(s.total)
    ensures s.page < TotalPages(s.total) ==> r.state.page == s.page + 1
    ensures s.page > TotalPages(s.total) ==> r.state.page == TotalPages(s.total)
    ensures r.commands == if r.state.page != s.page then [FetchTasks(r.state.page, s.search)] else []
    ensures r.state.tasks == s.tasks && r.state.search == s.search && r.state.total == s.total
  {
    var last := TotalPages(s.total);
    if NextDisabled(s) then Step(s, [])
    else Navigate(s, if s.page + 1 < last then s.page + 1 else last, s.search)
  }

  /** Typing in the search box: back to page 1 with the new text. */
  function EditSearch(s: PageState, text: string): (r: Step)
    ensures r.state.page == 1 && r.state.search == text
    ensures r.commands != [] ==> r.commands == [FetchTasks(1, text)]
    ensures r.commands == [] <==> s.page == 1 && s.search == text
  {
    Navigate(s, 1, text)
  }

  /** The answer to a fetch: rows and total, or a failure. */
  datatype LoadResult = Loaded(rows: seq<TaskModal.TaskView>, total: nat) | LoadFailed

  /** `loadTasks` completing: success replaces rows and total, failure alerts and keeps everything. */
  function FinishLoad(s: PageState, result: LoadResult): (r: Step)
    ensures result.LoadFailed? ==> r == Step(s, [Alert(LoadFailedMessage)])
    ensures result.Loaded? ==>
      r.state == s.(tasks := result.rows, total := result.total) && r.commands == []
  {
    match result
    case Loaded(rows, total) => Step(s.(tasks := rows, total := total), [])
    case LoadFailed => Step(s, [Alert(LoadFailedMessage)])
  }

  /** `handleDelete`: nothing without confirmation; otherwise delete, then refetch the current page or alert. */
  function Delete(s: PageState, id: nat, confirmed: bool, deleted: bool): (r: Step)
    ensures r.state == s
    ensures !confirmed ==> r.commands == []
    ensures confirmed && deleted ==> r.commands == [RemoveTask(id), FetchTasks(s.page, s.search)]
    ensures confirmed && !deleted ==> r.commands == [RemoveTask(id), Alert(DeleteFailedMessage)]
  {
    if !confirmed then Step(s, [])
    else if deleted then Step(s, [RemoveTask(id), FetchTasks(s.page, s.search)])
    else Step(s, [RemoveTask(id), Alert(DeleteFailedMessage)])
  }

  /** The Create button: an empty dialog for a new task. */
  function OpenCreate(s: PageState): (r: PageState)
    ensures r.dialog == Some(Dialog(None, TaskModal.Form("", "")))
    ensures r.page == s.page && r.search == s.search && r.tasks == s.tasks
  {
    s.(dialog := Some(Dialog(None, TaskModal.Prefill(None))))
  }

  /** The Edit button: a dialog prefilled from the row. */
  function OpenEdit(s: PageState, t: TaskModal.TaskView): (r: PageState)
    ensures r.dialog.Some? && r.dialog.value.editing == Some(t)
    ensures r.dialog.value.form == TaskModal.Prefill(Some(t))
    ensures r.page == s.page && r.search == s.search && r.tasks == s.tasks
  {
    s.(dialog := Some(Dialog(Some(t), TaskModal.Prefill(Some(t)))))
  }

  /** The page's reading of one dialog effect; `reload` is this page's `loadTasks`. */
  function Translate(s: PageState, e: TaskModal.Effect): (cs: seq<Command>)
    ensures |cs| <= 1
    ensures cs == [] <==> e.Close?
    ensures e.Reload? ==> cs == [FetchTasks(s.page, s.search)]
    ensures forall i | 0 <= i < |cs| :: !cs[i].RemoveTask? && (cs[i].FetchTasks? <==> e.Reload?)
  {
    match e
    case Alert(m) => [Alert(m)]
    case Send(q) => [SaveTask(q)]
    case Reload => [FetchTasks(s.page, s.search)]
    case Close => []
  }

  function TranslateAll(s: PageState, effects: seq<TaskModal.Effect>): (cs: seq<Command>)
    ensures |cs| <= |effects|
    ensures forall i | 0 <= i < |cs| :: !cs[i].RemoveTask?
  {
    if |effects| == 0 then [] else Translate(s, effects[0]) + TranslateAll(s, effects[1..])
  }

  /** Pressing Save in the open dialog: the dialog's own submission, with its reload bound to the current page and search. */
  function SubmitDialog(s: PageState, saved: bool): (r: Step)
    ensures s.dialog.None? ==> r == Step(s, [])
    ensures r.state.page == s.page && r.state.search == s.search && r.state.tasks == s.tasks
  {
    match s.dialog
    case None => Step(s, [])
    case Some(d) =>
      var sub := TaskModal.Submit(d.form, d.editing, saved);
      var dialog := if sub.closed then None else Some(d.(form := sub.form));
      Step(s.(dialog := dialog), TranslateAll(s, sub.effects))
  }

  /** Cancel: the dialog closes without any request. */
  function CloseDialog(s: PageState): (r: PageState)
    ensures r.dialog.None? && r.page == s.page && r.search == s.search && r.tasks == s.tasks
  {
    s.(dialog := None)
  }

  // ---------------------------------------------------------------------
  // The page as a state machine over user and network events.
  // ---------------------------------------------------------------------

  datatype Event =
    | ClickPrev
    | ClickNext
    | TypeSearch(text: string)
    | LoadDone(result: LoadResult)
    | ClickDelete(id: nat, confirmed: bool, deleted: bool)
    | ClickCreate
    | ClickEdit(task: TaskModal.TaskView)
    | TypeInDialog(form: TaskModal.Form)
    | ClickSave(saved: bool)
    | ClickCancel

  /** One event. */
  function Handle(s: PageState, e: Event): (r: Step)
    ensures !(e.ClickPrev? || e.ClickNext? || e.TypeSearch?) ==> r.state.page == s.page && r.state.search == s.search
    ensures e.ClickCreate? || e.ClickEdit? || e.TypeInDialog? || e.ClickCancel? ==> r.commands == []
    ensures forall i | 0 <= i < |r.commands| :: r.commands[i].RemoveTask? ==> e.ClickDelete?
    ensures forall i | 0 <= i < |r.commands| :: r.commands[i].SaveTask? ==> e.ClickSave?
    ensures r.state.page != s.page || r.state.search != s.search ==>
      r.commands == [FetchTasks(r.state.page, r.state.search)]
  {
    match e
    case ClickPrev => Prev(s)
    case ClickNext => Next(s)
    case TypeSearch(text) => EditSearch(s, text)
    case LoadDone(result) => FinishLoad(s, result)
    case ClickDelete(id, confirmed, deleted) => Delete(s, id, confirmed, deleted)
    case ClickCreate => Step(OpenCreate(s), [])
    case ClickEdit(t) => Step(OpenEdit(s, t), [])
    case TypeInDialog(f) =>
      Step(if s.dialog.Some? then s.(dialog := Some(s.dialog.value.(form := f))) else s, [])
    case ClickSave(saved) => SubmitDialog(s, saved)
    case ClickCancel => Step(CloseDialog(s), [])
  }

  /** A sequence of events from `s`: the final state and every command issued, in order. */
  function Run(s: PageState, events: seq<Event>): Step
    decreases |events|
  {
    if |events| == 0 then Step(s, [])
    else
      var first := Handle(s, events[0]);
      var rest := Run(first.state, events[1..]);
      Step(rest.state, first.commands + rest.commands)
  }

  /** Every list fetch among `cs` asks for a page of at least 1. */
  predicate FetchesPositive(cs: seq<Command>) {
    forall i | 0 <= i < |cs| :: cs[i].FetchTasks? ==> cs[i].page >= 1
  }

  /** One event keeps the page at 1 or more and only fetches such pages. */
  lemma HandleKeepsPagePositive(s: PageState, e: Event)
    requires s.page >= 1
    ensures Handle(s, e).state.page >= 1
    ensures FetchesPositive(Handle(s, e).commands)
  {
    match e
    case ClickSave(saved) =>
      if s.dialog.Some? {
        var d := s.dialog.value;
        TranslateFetchesCurrent(s, TaskModal.Submit(d.form, d.editing, saved).effects);
      }
    case _ =>
  }

  /** The dialog's reloads fetch the page and search current when it was submitted. */
  lemma {:induction false} TranslateFetchesCurrent(s: PageState, effects: seq<TaskModal.Effect>)
    ensures forall i | 0 <= i < |TranslateAll(s, effects)| :: TranslateAll(s, effects)[i].FetchTasks? ==>
      TranslateAll(s, effects)[i] == FetchTasks(s.page, s.search)
    decreases |effects|
  {
    if |effects| > 0 {
      TranslateFetchesCurrent(s, effects[1..]);
    }
  }

  /** Starting at page 1 or later, no sequence of events reaches a page below 1 or fetches one. */
  lemma {:induction false} RunKeepsPagePositive(s: PageState, events: seq<Event>)
    requires s.page >= 1
    ensures Run(s, events).state.page >= 1
    ensures FetchesPositive(Run(s, events).commands)
    decreases |events|
  {
    if |events| > 0 {
      var first := Handle(s, events[0]);
      HandleKeepsPagePositive(s, events[0]);
      RunKeepsPagePositive(first.state, events[1..]);
      var rest := Run(first.state, events[1..]);
      assert Run(s, events).commands == first.commands + rest.commands;
    }
  }

  /** A failed load changes nothing on the page, whatever was shown before. */
  lemma FailedLoadKeepsTable(s: PageState)
    ensures Handle(s, LoadDone(LoadFailed)).state == s
  {
  }

  /** Next then Prev returns to the same page when Next was enabled and moved forward by one. */
  lemma NextThenPrev(s: PageState)
    requires 1 <= s.page < TotalPages(s.total)
    ensures Prev(Next(s).state).state.page == s.page
  {
  }

  /** Prev then Next returns to the same page when Prev was enabled and the page was in range. */
  lemma PrevThenNext(s: PageState)
    requires 1 < s.page <= TotalPages(s.total)
    ensures Next(Prev(s).state).state.page == s.page
  {
  }

  /** Saving a valid dialog successfully issues the save and exactly one fetch of the current page and search, then closes. */
  lemma SuccessfulSaveReloadsOnce(s: PageState, d: Dialog)
    requires s.dialog == Some(d)
    requires TaskModal.Validate(d.form, d.editing).Ok?
    ensures var r := SubmitDialog(s, true);
      && r.commands == [SaveTask(TaskModal.Validate(d.form, d.editing).value), FetchTasks(s.page, s.search)]
      && r.state.dialog.None?
  {
    var q := TaskModal.Validate(d.form, d.editing).value;
    var sub := TaskModal.Submit(d.form, d.editing, true);
    var effects := [TaskModal.Send(q), TaskModal.Reload, TaskModal.Close];
    assert sub == TaskModal.Submission(d.form, true, effects);
    TranslateSaved(s, q);
  }

  /** How the page reads the effects of a successful save. */
  lemma TranslateSaved(s: PageState, q: TaskModal.Request)
    ensures TranslateAll(s, [TaskModal.Send(q), TaskModal.Reload, TaskModal.Close])
      == [SaveTask(q), FetchTasks(s.page, s.search)]
  {
    var tail := [TaskModal.Close];
    assert tail[1..] == [];
    assert TranslateAll(s, tail) == [];
    var mid := [TaskModal.Reload, TaskModal.Close];
    assert mid[1..] == tail;
    assert TranslateAll(s, mid) == [FetchTasks(s.page, s.search)];
    assert [TaskModal.Send(q), TaskModal.Reload, TaskModal.Close][1..] == mid;
  }

  /** A failed save keeps the dialog open with the user's input untouched. */
  lemma FailedSaveKeepsInput(s: PageState, d: Dialog)
    requires s.dialog == Some(d)
    ensures SubmitDialog(s, false).state.dialog == Some(d)
  {
  }

  /** The example run: 12 tasks make 3 pages, and Next from page 1 fetches page 2 with the same search. */
  lemma TwelveTasksExample(rows: seq<TaskModal.TaskView>)
    requires |rows| == 5
    ensures var loaded := FinishLoad(Mount().state, Loaded(rows, 12)).state;
      && TotalPages(loaded.total) == 3
      && ShownCount(loaded) == 5
      && Next(loaded).commands == [FetchTasks(2, "")]
  {
    var loaded := FinishLoad(Mount().state, Loaded(rows, 12)).state;
    assert TotalPages(12) == 3;
  }
}

=== FILE: text.dfy ===
/**
 * String helpers the dashboard relies on: whitespace trimming as Python's
 * `str.strip` and JavaScript's `String.prototype.trim` do it, substring
 * containment, and the backend's HTML tag stripper `sanitize_text`
 * (backend/main.py:37-42).
 */
module Text {
  import opened Wrappers

  /** The ASCII whitespace both languages agree on: tab, line feed, vertical tab, form feed, carriage return, space. */
  predicate AsciiSpace(c: char) {
    c == '\t' || c == '\n' || c == '\U{B}' || c == '\U{C}' || c == '\r' || c == ' '
  }

  /** Unicode space separators and line/paragraph separators, whitespace in both languages. */
  predicate UnicodeSpace(c: char) {
    c == '\U{A0}' || c == '\U{1680}' || ('\U{2000}' <= c <= '\U{200A}')
    || c == '\U{2028}' || c == '\U{2029}' || c == '\U{202F}' || c == '\U{205F}' || c == '\U{3000}'
  }

  /** Python's `str.isspace` on one character: adds the information separators U+001C..U+001F and NEL U+0085. */
  predicate PyIsSpace(c: char): (b: bool)
    ensures b <==> (JsIsSpace(c) && c != '\U{FEFF}') || ('\U{1C}' <= c <= '\U{1F}') || c == '\U{85}'
  {
    AsciiSpace(c) || UnicodeSpace(c) || ('\U{1C}' <= c <= '\U{1F}') || c == '\U{85}'
  }

  /** The whitespace JavaScript's `trim` removes: adds the byte-order mark U+FEFF. */
  predicate JsIsSpace(c: char): (b: bool)
    ensures c < '\U{80}' ==> (b <==> AsciiSpace(c))
  {
    AsciiSpace(c) || UnicodeSpace(c) || c == '\U{FEFF}'
  }

  /** Every character of `s` is whitespace according to `ws`. */
  predicate AllSpace(s: string, ws: char -> bool) {
    forall i | 0 <= i < |s| :: ws(s[i])
  }

  /** `s` neither begins nor ends with a `ws` character. */
  predicate NoEdgeSpace(s: string, ws: char -> bool) {
    |s| == 0 || (!ws(s[0]) && !ws(s[|s| - 1]))
  }

  /** The number of leading whitespace characters of `s`. */
  function LeadingSpace(s: string, ws: char -> bool): (n: nat)
    ensures n <= |s|
    ensures AllSpace(s[..n], ws)
    ensures n < |s| ==> !ws(s[n])
  {
    if |s| == 0 || !ws(s[0]) then 0
    else
      var n := 1 + LeadingSpace(s[1..], ws);
      assert s[..n] == [s[0]] + s[1..][..n - 1];
      n
  }

  /** The index where the trailing whitespace of `s` begins. */
  function TrailingStart(s: string, ws: char -> bool): (m: nat)
    ensures m <= |s|
    ensures AllSpace(s[m..], ws)
    ensures m > 0 ==> !ws(s[m - 1])
  {
    if |s| == 0 || !ws(s[|s| - 1]) then |s|
    else
      var m := TrailingStart(s[..|s| - 1], ws);
      assert s[m..] == s[..|s| - 1][m..] + [s[|s| - 1]];
      m
  }

  /** `s` with leading and trailing `ws` characters removed. */
  function TrimBy(s: string, ws: char -> bool): (r: string)
    ensures LeadingSpace(s, ws) + |r| <= |s|
    ensures NoEdgeSpace(r, ws)
    ensures r == s[LeadingSpace(s, ws)..LeadingSpace(s, ws) + |r|]
  {
    var lo := LeadingSpace(s, ws);
    var rest := s[lo..];
    var hi := TrailingStart(rest, ws);
    var r := rest[..hi];
    assert s[lo + |r|..] == rest[hi..];
    r
  }

  /** Trimming removes only whitespace: what it cuts off at either end is all `ws`. */
  lemma TrimByCutsOnlySpace(s: string, ws: char -> bool)
    ensures var lo := LeadingSpace(s, ws);
      AllSpace(s[..lo], ws) && AllSpace(s[lo + |TrimBy(s, ws)|..], ws)
  {
    var lo := LeadingSpace(s, ws);
    var rest := s[lo..];
    var hi := TrailingStart(rest, ws);
    assert s[lo + |TrimBy(s, ws)|..] == rest[hi..];
  }

  /**
   * Python's `str.strip()` with no argument: the maximal trim, the part left
   * once every leading and every trailing Python whitespace character is cut.
   */
  function Strip(s: string): (r: string)
    ensures NoEdgeSpace(r, PyIsSpace)
    ensures var lo := LeadingSpace(s, PyIsSpace);
      && lo + |r| <= |s| && r == s[lo..lo + |r|]
      && AllSpace(s[..lo], PyIsSpace) && AllSpace(s[lo + |r|..], PyIsSpace)
  {
    TrimByCutsOnlySpace(s, PyIsSpace);
    TrimBy(s, PyIsSpace)
  }

  /** JavaScript's `String.prototype.trim()`: the same, with JavaScript's whitespace. */
  function Trim(s: string): (r: string)
    ensures NoEdgeSpace(r, JsIsSpace)
    ensures var lo := LeadingSpace(s, JsIsSpace);
      && lo + |r| <= |s| && r == s[lo..lo + |r|]
      && AllSpace(s[..lo], JsIsSpace) && AllSpace(s[lo + |r|..], JsIsSpace)
  {
    TrimByCutsOnlySpace(s, JsIsSpace);
    TrimBy(s, JsIsSpace)
  }

  /** A string already free of edge whitespace is left unchanged by trimming. */
  lemma {:induction false} TrimByNoEdgeSpace(s: string, ws: char -> bool)
    requires NoEdgeSpace(s, ws)
    ensures TrimBy(s, ws) == s
  {
    assert LeadingSpace(s, ws) == 0;
    assert s[0..] == s;
    assert TrailingStart(s, ws) == |s|;
  }

  /** Trimming is idempotent. */
  lemma TrimByIdempotent(s: string, ws: char -> bool)
    ensures TrimBy(TrimBy(s, ws), ws) == TrimBy(s, ws)
  {
    TrimByNoEdgeSpace(TrimBy(s, ws), ws);
  }

  /** `sub` occurs in `s` as a contiguous block (JavaScript `includes`, SQL `LIKE '%sub%'` without wildcards). */
  predicate Contains(s: string, sub: string): (b: bool)
    ensures b ==> |sub| <= |s|
    ensures sub == [] ==> b
    decreases |s|
  {
    sub <= s || (|s| > 0 && Contains(s[1..], sub))
  }

  /** `sub` sits at offset `k` of `s`. */
  predicate OccursAt(s: string, sub: string, k: nat) {
    k + |sub| <= |s| && s[k..k + |sub|] == sub
  }

  /** An occurrence at any offset makes `s` contain `sub`. */
  lemma {:induction false} ContainsAt(s: string, sub: string, k: nat)
    requires OccursAt(s, sub, k)
    ensures Contains(s, sub)
    decreases k
  {
    if k == 0 {
      assert s[..|sub|] == sub;
    } else {
      assert s[1..][k - 1..k - 1 + |sub|] == s[k..k + |sub|];
      ContainsAt(s[1..], sub, k - 1);
    }
  }

  /** `Contains` holds exactly when `sub` sits at some offset of `s`. */
  lemma {:induction false} ContainsIffOccurs(s: string, sub: string)
    ensures Contains(s, sub) <==> exists k: nat :: OccursAt(s, sub, k)
    decreases |s|
  {
    if Contains(s, sub) {
      if sub <= s {
        assert s[0..|sub|] == sub;
        assert OccursAt(s, sub, 0);
      } else {
        ContainsIffOccurs(s[1..], sub);
        var k: nat :| OccursAt(s[1..], sub, k);
        assert s[k + 1..k + 1 + |sub|] == s[1..][k..k + |sub|];
        assert OccursAt(s, sub, k + 1);
      }
    }
    if exists k: nat :: OccursAt(s, sub, k) {
      var k: nat :| OccursAt(s, sub, k);
      ContainsAt(s, sub, k);
    }
  }

  // ---------------------------------------------------------------------
  // The tag stripper and the sanitiser built on it.
  // ---------------------------------------------------------------------

  /** No `>` of `s` comes before the first line feed: a `<` just before `s` opens no tag. */
  predicate Unclosed(s: string) {
    forall j | 0 <= j < |s| && s[j] == '>' :: '\n' in s[..j]
  }

  /**
   * The position of the `>` that closes a tag whose body starts at `s[0]`:
   * the first `>` reachable without crossing a line feed, which is where the
   * lazy `.*?` stops (`.` does not match a line feed).
   */
  function CloseAt(s: string): (r: Option<nat>)
    ensures r.Some? ==> r.value < |s| && s[r.value] == '>'
    ensures r.Some? ==> '>' !in s[..r.value] && '\n' !in s[..r.value]
    ensures r.None? <==> Unclosed(s)
  {
    if |s| == 0 then None
    else if s[0] == '>' then Some(0)
    else if s[0] == '\n' then
      assert forall j | 0 < j < |s| :: s[..j][0] == '\n';
      None
    else
      match CloseAt(s[1..])
      case Some(k) =>
        assert s[..k + 1] == [s[0]] + s[1..][..k];
        Some(k + 1)
      case None =>
        assert forall j | 0 < j < |s| :: s[..j] == [s[0]] + s[1..][..j - 1];
        None
  }

  /** `s` contains no `<`, later `>` pair without a line feed between: nothing the tag pattern can match. */
  predicate TagFree(s: string) {
    forall i, j | 0 <= i < j < |s| && s[i] == '<' && s[j] == '>' :: '\n' in s[i + 1..j]
  }

  /**
   * Python's `re.sub(r"<.*?>", "", s)`: scanning left to right, each `<`
   * that has a `>` ahead of it on the same line is deleted together with
   * everything up to and including the first such `>`; other characters are
   * kept and scanning resumes after a deleted tag.
   */
  function StripTags(s: string): (r: string)
    ensures |r| <= |s|
    decreases |s|
  {
    if |s| == 0 then ""
    else if s[0] == '<' && CloseAt(s[1..]).Some? then
      StripTags(s[CloseAt(s[1..]).value + 2..])
    else
      [s[0]] + StripTags(s[1..])
  }

  /**
   * What tag removal leaves: nothing the pattern can match; tag-free text
   * is left alone; and a `<` with no `>` ahead on its line stays unclosed.
   */
  lemma {:induction false} StripTagsProps(s: string)
    ensures TagFree(StripTags(s))
    ensures TagFree(s) ==> StripTags(s) == s
    ensures Unclosed(s) ==> Unclosed(StripTags(s))
    decreases |s|
  {
    if |s| == 0 {
    } else if s[0] == '<' && CloseAt(s[1..]).Some? {
      var k := CloseAt(s[1..]).value;
      StripTagsProps(s[k + 2..]);
      assert s[k + 1] == '>' && s[1..k + 1] == s[1..][..k];
      assert !TagFree(s) && !Unclosed(s) by {
        assert s[..k + 1][0] == '<';
      }
    } else {
      StripTagsProps(s[1..]);
      KeepFirst(s, StripTags(s[1..]));
    }
  }

  /** The facts about `[s[0]] + StripTags(s[1..])` that `StripTags` needs when it keeps `s[0]`. */
  lemma KeepFirst(s: string, rest: string)
    requires |s| > 0
    requires !(s[0] == '<' && CloseAt(s[1..]).Some?)
    requires TagFree(rest)
    requires TagFree(s[1..]) ==> rest == s[1..]
    requires Unclosed(s[1..]) ==> Unclosed(rest)
    ensures TagFree([s[0]] + rest)
    ensures TagFree(s) ==> [s[0]] + rest == s
    ensures Unclosed(s) ==> Unclosed([s[0]] + rest)
  {
    KeepFirstTagFree(s, rest);
    if TagFree(s) {
      TagFreeInfix(s, 1, |s|);
      assert s[1..|s|] == s[1..];
    }
    if Unclosed(s) {
      KeepFirstUnclosed(s, rest);
    }
  }

  /** Keeping a first character that opens no tag leaves a tag-free string tag-free. */
  lemma KeepFirstTagFree(s: string, rest: string)
    requires |s| > 0
    requires !(s[0] == '<' && CloseAt(s[1..]).Some?)
    requires TagFree(rest)
    requires Unclosed(s[1..]) ==> Unclosed(rest)
    ensures TagFree([s[0]] + rest)
  {
    var r := [s[0]] + rest;
    forall i, j | 0 <= i < j < |r| && r[i] == '<' && r[j] == '>'
      ensures '\n' in r[i + 1..j]
    {
      if i == 0 {
        OpeningKept(s, rest, j);
      } else {
        LaterPairKept(s[0], rest, i, j);
      }
    }
  }

  /** A kept `<` in front: its would-be closing `>` is behind a line feed. */
  lemma OpeningKept(s: string, rest: string, j: nat)
    requires |s| > 0 && s[0] == '<' && CloseAt(s[1..]).None?
    requires Unclosed(s[1..]) ==> Unclosed(rest)
    requires 0 < j <= |rest| && rest[j - 1] == '>'
    ensures '\n' in ([s[0]] + rest)[1..j]
  {
    UnclosedAt(rest, j - 1);
    assert ([s[0]] + rest)[1..j] == rest[..j - 1];
  }

  /** A tag-free pair further on stays separated by a line feed once a character is put in front. */
  lemma LaterPairKept(c: char, rest: string, i: nat, j: nat)
    requires TagFree(rest)
    requires 0 < i < j <= |rest| && rest[i - 1] == '<' && rest[j - 1] == '>'
    ensures '\n' in ([c] + rest)[i + 1..j]
  {
    TagFreePair(rest, i - 1, j - 1);
    SliceShift([c] + rest, rest, i + 1, j, 1);
  }

  /** One instance of `TagFree`. */
  lemma TagFreePair(s: string, i: nat, j: nat)
    requires TagFree(s)
    requires i < j < |s| && s[i] == '<' && s[j] == '>'
    ensures '\n' in s[i + 1..j]
  {
  }

  /** One instance of `Unclosed`. */
  lemma UnclosedAt(s: string, j: nat)
    requires Unclosed(s)
    requires j < |s| && s[j] == '>'
    ensures '\n' in s[..j]
  {
  }

  /** Keeping the first character of an unclosed string keeps it unclosed. */
  lemma KeepFirstUnclosed(s: string, rest: string)
    requires |s| > 0
    requires Unclosed(s)
    requires Unclosed(s[1..]) ==> Unclosed(rest)
    ensures Unclosed([s[0]] + rest)
  {
    var r := [s[0]] + rest;
    if s[0] == '\n' {
      forall j | 0 <= j < |r| && r[j] == '>' ensures '\n' in r[..j] {
        assert r[..j][0] == '\n';
      }
    } else {
      forall j | 0 <= j < |s[1..]| && s[1..][j] == '>' ensures '\n' in s[1..][..j] {
        assert s[..j + 1] == [s[0]] + s[1..][..j];
      }
      forall j | 0 <= j < |r| && r[j] == '>' ensures '\n' in r[..j] {
        assert j > 0;
        assert r[..j] == [s[0]] + rest[..j - 1];
        assert rest[j - 1] == '>';
      }
    }
  }

  /** Text before the first `<` passes through tag removal untouched. */
  lemma {:induction false} StripTagsKeepsPlainPrefix(a: string, b: string)
    requires '<' !in a
    ensures StripTags(a + b) == a + StripTags(b)
    decreases |a|
  {
    if |a| == 0 {
      assert a + b == b;
    } else {
      var tail := a[1..];
      assert (a + b)[1..] == tail + b;
      KeepUnopened(a + b);
      assert '<' !in tail by {
        assert forall j | 0 <= j < |tail| :: tail[j] == a[j + 1];
      }
      StripTagsKeepsPlainPrefix(tail, b);
      calc {
        StripTags(a + b);
        [a[0]] + StripTags(tail + b);
        [a[0]] + (tail + StripTags(b));
        { assert a == [a[0]] + tail; }
        a + StripTags(b);
      }
    }
  }

  /** The tag stripper copies a first character that opens no tag. */
  lemma KeepUnopened(s: string)
    requires |s| > 0 && !(s[0] == '<' && CloseAt(s[1..]).Some?)
    ensures StripTags(s) == [s[0]] + StripTags(s[1..])
  {
  }

  /** A tag body without `>` and without a line feed is closed by the `>` right after it. */
  lemma CloseAtAfter(m: string, b: string)
    requires '>' !in m && '\n' !in m
    ensures CloseAt(m + ">" + b) == Some(|m|)
  {
    var t := m + ">" + b;
    assert t[|m|] == '>' && t[..|m|] == m;
    assert !Unclosed(t);
    var k := CloseAt(t).value;
    assert forall j | 0 <= j < |m| :: t[j] == m[j];
    CharBeforeIsIn(t, |m|, k);
  }

  /** A character before position `k` is in the prefix `t[..k]`. */
  lemma CharBeforeIsIn(t: string, j: nat, k: nat)
    requires j < |t| && k <= |t|
    ensures j < k ==> t[j] in t[..k]
  {
    if j < k {
      assert t[..k][j] == t[j];
    }
  }

  /** A tag preceded by no `<` is deleted, with everything up to its first `>`; the text before it is kept. */
  lemma StripTagsDropsFirstTag(a: string, m: string, b: string)
    requires '<' !in a && '>' !in m && '\n' !in m
    ensures StripTags(a + "<" + m + ">" + b) == a + StripTags(b)
  {
    var x := "<" + m + ">" + b;
    assert a + "<" + m + ">" + b == a + x;
    StripTagsKeepsPlainPrefix(a, x);
    assert x[1..] == m + ">" + b;
    CloseAtAfter(m, b);
    assert x[|m| + 2..] == b;
  }

  /** A `<` whose rest of the line holds no `>` opens no tag: the search stops at the line feed. */
  lemma {:induction false} CloseAtBeforeNewline(u: string, b: string)
    requires '>' !in u && '\n' !in u
    ensures CloseAt(u + "\n" + b) == None
    decreases |u|
  {
    var t := u + "\n" + b;
    if |u| == 0 {
      assert t[0] == '\n';
    } else {
      assert t[0] == u[0];
      assert t[1..] == u[1..] + "\n" + b;
      assert '>' !in u[1..] && '\n' !in u[1..] by {
        assert forall j | 0 <= j < |u[1..]| :: u[1..][j] == u[j + 1];
      }
      CloseAtBeforeNewline(u[1..], b);
    }
  }

  /**
   * A line with no `>` survives the tag stripper whole, even its `<`s, and
   * so does the line feed ending it; stripping resumes after it. On
   * `"<\n<b>c"` the result is `"<\nc"`.
   */
  lemma {:induction false} StripTagsKeepsLine(t: string, b: string)
    requires '>' !in t && '\n' !in t
    ensures StripTags(t + "\n" + b) == t + "\n" + StripTags(b)
    decreases |t|
  {
    var s := t + "\n" + b;
    if |t| == 0 {
      assert s == "\n" + b && s[1..] == b;
      KeepUnopened(s);
    } else {
      var tail := t[1..];
      assert s[1..] == tail + "\n" + b;
      assert '>' !in tail && '\n' !in tail by {
        assert forall j | 0 <= j < |tail| :: tail[j] == t[j + 1];
      }
      CloseAtBeforeNewline(tail, b);
      KeepUnopened(s);
      StripTagsKeepsLine(tail, b);
      calc {
        StripTags(s);
        [s[0]] + StripTags(tail + "\n" + b);
        [t[0]] + (tail + "\n" + StripTags(b));
        { assert t == [t[0]] + tail; }
        t + "\n" + StripTags(b);
      }
    }
  }

  /** A `<` alone on its line stays, while the tag on the next line goes. */
  lemma LoneAngleBeforeTag()
    ensures StripTags("<\n<b>c") == "<\nc"
  {
    assert "<\n<b>c" == "<" + "\n" + "<b>c";
    StripTagsKeepsLine("<", "<b>c");
    assert "<b>c" == "" + "<" + "b" + ">" + "c";
    StripTagsDropsFirstTag("", "b", "c");
    KeepUnopened("c");
  }

  /** The backend's `sanitize_text`: strip tags, then Python-strip whitespace. */
  function Sanitize(s: string): (r: string)
    ensures |r| <= |s|
    ensures TagFree(r) && NoEdgeSpace(r, PyIsSpace)
  {
    StripTagsProps(s);
    TrimByKeepsTagFree(StripTags(s), PyIsSpace);
    Strip(StripTags(s))
  }

  /** What a sanitised string looks like: no tag left and no edge whitespace. */
  predicate IsSanitized(s: string) {
    TagFree(s) && NoEdgeSpace(s, PyIsSpace)
  }

  /** A contiguous piece of a tag-free string is tag-free. */
  lemma TagFreeInfix(s: string, lo: nat, hi: nat)
    requires lo <= hi <= |s|
    requires TagFree(s)
    ensures TagFree(s[lo..hi])
  {
    var t := s[lo..hi];
    forall i, j | 0 <= i < j < |t| && t[i] == '<' && t[j] == '>'
      ensures '\n' in t[i + 1..j]
    {
      assert s[lo + i] == '<' && s[lo + j] == '>';
      SliceShift(s, t, lo + i + 1, lo + j, lo);
    }
  }

  /** A slice of `a` that matches a slice of `b` shifted by `d`: membership carries over. */
  lemma SliceShift(a: string, b: string, lo: nat, hi: nat, d: nat)
    requires d <= lo <= hi <= |a| && hi - d <= |b|
    requires forall k | lo <= k < hi :: a[k] == b[k - d]
    ensures a[lo..hi] == b[lo - d..hi - d]
  {
  }

  /** Trimming keeps tag-freedom. */
  lemma TrimByKeepsTagFree(u: string, ws: char -> bool)
    requires TagFree(u)
    ensures TagFree(TrimBy(u, ws))
  {
    var r := TrimBy(u, ws);
    var lo := LeadingSpace(u, ws);
    TagFreeInfix(u, lo, lo + |r|);
  }

  /** The sanitised strings are exactly the fixed points of `Sanitize`. */
  lemma SanitizedIffFixpoint(s: string)
    ensures IsSanitized(s) <==> Sanitize(s) == s
  {
    if IsSanitized(s) {
      StripTagsProps(s);
      TrimByNoEdgeSpace(s, PyIsSpace);
    }
  }

  /** `sanitize_text` is idempotent: sanitising a stored value again changes nothing. */
  lemma SanitizeIdempotent(s: string)
    ensures Sanitize(Sanitize(s)) == Sanitize(s)
  {
    SanitizedIffFixpoint(Sanitize(s));
  }
}

=== FILE: wrappers.dfy ===
/** Failure-carrying datatypes shared by the backend and frontend models. */
module Wrappers {

  /** A value that may be absent: Python's `None`, JavaScript's `null`/`undefined`. */
  datatype Option<+T> = None | Some(value: T) {

    /** The held value, or `default` when absent (JavaScript's `x || default` on strings). */
    function GetOr(default: T): T {
      match this
      case Some(v) => v
      case None => default
    }
  }

  /** The outcome of a request: a value, or the error the source raises or reports. */
  datatype Result<+R, +E> = Ok(value: R) | Err(error: E)
}
